=== FILE: README.md ===
# Body Defense core, modelled in Dafny

Body Defense is a Unity tower-defense game. Monsters come out of a blue portal
at grid cell (0, 0) and walk an A* route to a red portal at (11, 6). The player
places towers on the grid to shoot them. Placing a tower blocks its tile, so a
placement is allowed only while a route still exists. This project models the
game's core as pure Dafny functions and methods over immutable data:

- the A* search (`AStar`, `Nodes`, `Points`, `Moves`);
- the level: reading the level text, building the grid, the placement path
  check and the cached monster path (`Levels`, `Grids`);
- the tile's mouse handler (`Tiles`);
- units walking a path (`Units`) and monsters with health, resistance and
  debuff lists (`Monsters`);
- towers and their upgrade ladders (`Towers`, `Upgrades`);
- the object pool (`Pooling`);
- the game manager: lives, currency, the shop, waves of monsters (`Game`).

Unity singletons and static fields become explicit parameters and results. The
A* node dictionary is `Option<map<Point, Node>>`: `None` before the first
search, created and returned by it. A C# `null` is `None`. A `Stack<Node>` is a
sequence whose first element is the one `Pop` returns. A pooled GameObject is
an index into the pool. Randomness (`Random.Range`), the mouse, a unit reaching
its waypoint and a debuff's timer are inputs.

Main results:

- `AStar.GetPath` returns a route exactly when one exists (`Moves.Reachable`).
  The route it returns is a valid walk of the grid, and every node on it
  carries consistent parent, G, H and F values when the search returns.
- A tower placed through `Tiles.OnMouseOver` always leaves the monsters a
  blue-to-red route, although the placement check searches red-to-blue
  (`Moves.ReachableReverses`, `Tiles.PlacedKeepsRoute`). Selling and upgrading
  keep that route.
- The manager's invariant `Game.Sound` holds throughout: currency, lives and
  wave are non-negative, no lives means game over, and the active monsters are
  distinct active pooled objects. It is kept by every operation, including
  whole waves (`Game.SpawnWave`). As many leaks as there are lives end the game.

Two rules where the code differs from the way the rule is usually stated; the
model follows the code:

- Corner rule. A diagonal step is refused when either of the two corner cells
  is inside the map and not empty (Astar.cs lines 173-180), not only when both
  are blocked.
- Start equals goal. A search from a cell to itself is commonly expected to
  return an empty path. The code returns the empty stack only when the start
  cell has no neighbour the search admits; otherwise the first pick leaves the
  start and the search returns null.

Behaviours of the code that the model keeps and states:

- `Monsters.SameFrameDuplicates`. `AddDebuff` checks only the active list, so
  two debuffs of one class added in the same frame are both queued.
- `Tiles.PlaceTower`. The tower is placed before `BuyTower` checks the
  currency. If the player cannot pay (the currency can drop after picking, by
  upgrading a tower that was already selected), the tower is free and stays in
  hand.
- `Monsters.Spawn`. A pooled monster keeps its resistance (`invulnerability`)
  and any newly added debuffs when it is spawned again.

## Model

| member | source | states |
|---|---|---|
| Points.Eq | Assets/Scripts/AStar/Point.cs:28-31 | `==` on points is value equality |
| Points.Neq | Assets/Scripts/AStar/Point.cs:33-36 | the separately written `!=` is exactly the negation of `==` |
| Points.Equals | Assets/Scripts/AStar/Point.cs:53-57 | `Equals` agrees with `==` |
| Points.Sub | Assets/Scripts/AStar/Point.cs:38-41 | adding `b` back to `a - b` gives `a`; the difference is (0, 0) iff the points are equal |
| Points.TruncDiv | Assets/Scripts/AStar/Point.cs:43-46 | C# integer division: the quotient rounds toward zero and the remainder has the dividend's sign |
| Points.TruncDivCorrect | Assets/Scripts/AStar/Point.cs:43-46 | the magnitude-then-sign computation meets the truncated-quotient definition |
| Points.Div | Assets/Scripts/AStar/Point.cs:43-46 | `operator /` divides each coordinate with truncation |
| Points.TruncatedQuotientUnique | Assets/Scripts/AStar/Point.cs:43-46 | the truncated quotient is unique, so `Div` is fully determined |
| Points.TruncDivDiffersFromEuclidean | Assets/Scripts/AStar/Point.cs:43-46 | -3 / 2 is -1 in C#, unlike Dafny's Euclidean -2 |
| Nodes.NewNode | Assets/Scripts/AStar/Node.cs:49-54 | a new node copies the tile's grid position; G, H, F are 0 and Parent is null |
| Nodes.Heuristic | Assets/Scripts/AStar/Node.cs:71 | H is non-negative, a multiple of 10, and 0 exactly at the goal |
| Nodes.CalcValues | Assets/Scripts/AStar/Node.cs:62-75 | the node adopts the parent, G is the parent's G plus the step cost, H is the heuristic and F = G + H |
| Nodes.Reset | Assets/Scripts/AStar/Node.cs:80-86 | reset keeps the position and clears G, H, F and Parent |
| Nodes.ResetForgetsSearch | Assets/Scripts/AStar/Node.cs:80-86 | two nodes at one position are equal after a reset, whatever a search left in them |
| Nodes.CompareTo | Assets/Scripts/AStar/Node.cs:93-105 | the result is 1, -1 or 0 exactly when F is greater, smaller or equal |
| Nodes.CompareToIsOrdering | Assets/Scripts/AStar/Node.cs:93-105 | `CompareTo` is antisymmetric and transitive |
| Moves.NeighbourEnumeration | Assets/Scripts/AStar/Astar.cs:70-78 | the nine offsets of the double loop are the cell itself (k = 4) and its eight adjacent cells, each named once |
| Moves.AdjacentIsNeighbour | Assets/Scripts/AStar/Astar.cs:70-78 | every adjacent cell is visited by the double loop |
| Moves.MoveCost | Assets/Scripts/AStar/Astar.cs:86-98 | a step costs 10 when the parity test calls it axial and 14 otherwise |
| Moves.MoveCostClassifies | Assets/Scripts/AStar/Astar.cs:86-98 | the `abs(x - y) % 2 == 1` test picks exactly the axial moves (cost 10); the diagonals cost 14 |
| Moves.Corners | Assets/Scripts/AStar/Astar.cs:166-170 | the two cells the diagonal passes by are (b.x, a.y) and (a.x, b.y) |
| Moves.CornersFlankDiagonal | Assets/Scripts/AStar/Astar.cs:166-170 | both corner cells are adjacent to both ends of the diagonal step |
| Moves.CornersInBounds | Assets/Scripts/AStar/Astar.cs:173-180 | the corners of a step between in-bounds cells are in bounds |
| Moves.ConnectedDiagonally | Assets/Scripts/AStar/Astar.cs:163-184 | a diagonal is refused iff either corner is in bounds and not empty |
| Moves.PathCost | Assets/Scripts/AStar/Astar.cs:86-98 | a trail of n steps costs between 10n and 14n |
| Moves.PathWaypoints | Assets/Scripts/AStar/Astar.cs:78 | every waypoint of a route is in bounds, empty, not the start and adjacent to the one before |
| Moves.BlockedGoalUnreachable | Assets/Scripts/AStar/Astar.cs:78 | a cell that is not empty is never the end of a route |
| Moves.StepSymmetric | Assets/Scripts/AStar/Astar.cs:163-184 | a step between empty cells can be taken in both directions |
| Moves.ReachableReverses | Assets/Scripts/Managers/LevelManager.cs:321 | a route from an empty `a` to `b` gives a route from `b` to `a` |
| Moves.OpeningKeepsRoutes | Assets/Scripts/AStar/Astar.cs:78 | making cells walkable never removes a route; routes depend only on which cells are walkable |
| AStar.CreateNodes | Assets/Scripts/AStar/Astar.cs:22-34 | one node per tile under its own grid position, each in its reset state |
| AStar.ResetAll | Assets/Scripts/AStar/Astar.cs:51-54 | the reset loop keeps the keys and positions and resets every node |
| AStar.ResetAllForgets | Assets/Scripts/AStar/Astar.cs:44-54 | two caches over one grid are the same after the reset, so a search result does not depend on earlier searches |
| AStar.Visit | Assets/Scripts/AStar/Astar.cs:78-116 | examining one neighbour changes at most that neighbour's node, leaves the closed list alone and can only add that neighbour to the open list |
| AStar.VisitKeepsTree | Assets/Scripts/AStar/Astar.cs:78-116 | examining one neighbour keeps every open or closed node linked to the start by parents whose G and F are consistent |
| AStar.Expand | Assets/Scripts/AStar/Astar.cs:70-119 | after the double loop every admissible neighbour of the current node is open or closed, and the parent tree is kept |
| AStar.PickMin | Assets/Scripts/AStar/Astar.cs:127-130 | the picked node is open and has the least F of all open nodes |
| AStar.Positions | Assets/Scripts/AStar/Astar.cs:138-145 | the waypoint list has one grid position per popped node, in order |
| AStar.LinksPrepend | Assets/Scripts/AStar/Astar.cs:141-144 | pushing a node whose parent and G fit keeps the path's parent/G links |
| AStar.PositionsPrepend | Assets/Scripts/AStar/Astar.cs:141 | pushing a node adds its position in front of the waypoints |
| AStar.PathCostPrepend | Assets/Scripts/AStar/Astar.cs:141 | pushing a node adds one step's cost to the route cost |
| AStar.ChainPrepend | Assets/Scripts/AStar/Astar.cs:141-144 | pushing an admissible predecessor keeps the waypoints a chain of admissible steps |
| AStar.TreeIsSeenTree | Assets/Scripts/AStar/Astar.cs:101-125 | every open or closed node hangs off another seen node, down to the start |
| AStar.Reconstruct | Assets/Scripts/AStar/Astar.cs:132-149 | following parents from the goal ends at the start and yields a valid route whose last G is its total cost |
| AStar.Round | Assets/Scripts/AStar/Astar.cs:68-149 | one round of the main loop closes the current node and either keeps the search invariant or stops at the goal with the parent tree intact |
| AStar.GetPath | Assets/Scripts/AStar/Astar.cs:42-155 | for start != goal: a path comes back iff a route exists, and it is one; the returned cache covers the grid; for start == goal: an empty path iff the start has no admissible neighbour, else null |
| AStar.ExhaustedSearchCoversRoutes | Assets/Scripts/AStar/Astar.cs:152-153 | once the open list is empty every route from the start lies in the closed list, which is why null means no route |
| Grids.InBounds | Assets/Scripts/Managers/LevelManager.cs:247-250 | a position is on the map iff 0 <= x < width and 0 <= y < height |
| Grids.Start | Assets/Scripts/Other/TileScript.cs:54-61 | a tile starts empty and keeps its other fields |
| Grids.Setup | Assets/Scripts/Other/TileScript.cs:69-78 | the tile is stored under its grid position; a repeated key fails like `Dictionary.Add` |
| Grids.SetEmpty | Assets/Scripts/Managers/LevelManager.cs:319-328 | writing `IsEmpty` changes only that flag of that tile and keeps the grid's shape |
| Grids.SetEmptyRestores | Assets/Scripts/Managers/LevelManager.cs:319-328 | writing back the old flag restores the grid, which is why `CheckPath` leaves it unchanged |
| Levels.RemoveAll | Assets/Scripts/Managers/LevelManager.cs:262 | `Replace(newline, "")` never lengthens the text and leaves no single-character pattern |
| Levels.RemoveAllKeeps | Assets/Scripts/Managers/LevelManager.cs:262 | text without the pattern's first character is left unchanged |
| Levels.RemoveAllPrefix | Assets/Scripts/Managers/LevelManager.cs:262 | a pattern after pattern-free text is removed and the rest is processed |
| Levels.RemoveLineBreaks | Assets/Scripts/Managers/LevelManager.cs:262 | removing the newline from lines joined by newlines concatenates the lines |
| Levels.Split | Assets/Scripts/Managers/LevelManager.cs:265 | `Split('-')` gives at least one piece and no piece holds the separator |
| Levels.JoinSplit | Assets/Scripts/Managers/LevelManager.cs:265 | joining the pieces with the separator gives the text back |
| Levels.SplitJoin | Assets/Scripts/Managers/LevelManager.cs:265 | splitting separator-free pieces joined by the separator gives the pieces back |
| Levels.ReadLevelText | Assets/Scripts/Managers/LevelManager.cs:256-266 | the rows hold no '-' and, joined by '-', are the text with its newlines removed |
| Levels.CreateLevel | Assets/Scripts/Managers/LevelManager.cs:151-213 | the level is built iff every row is long enough and every cell is a digit naming a tile prefab, the first row is non-empty and the red portal is on the map; then it has one tile per cell, of that cell's type, empty and without a tower |
| Levels.PlaceTile | Assets/Scripts/Managers/LevelManager.cs:274-284 | a cell is placed iff it is a digit naming a tile prefab and its position is not yet registered; the new tile is empty, tower-less, typed by the digit and registered under (x, y), and no other tile changes |
| Levels.BuildRow | Assets/Scripts/Managers/LevelManager.cs:188-200 | one row is placed iff every column up to the first row's width is a prefab digit; the row's tiles join the ones already placed, each built from its cell |
| Levels.CheckPath | Assets/Scripts/Managers/LevelManager.cs:312-338 | true iff the tile is empty and the red portal still reaches the blue one with the tile blocked; the grid is left as it was |
| Levels.GeneratePath | Assets/Scripts/Managers/LevelManager.cs:289-293 | the stored path exists iff the blue portal reaches the red one, and it is such a route |
| Levels.CopyStack | Assets/Scripts/Managers/LevelManager.cs:131 | `new Stack<Node>(stack)` reverses the order |
| Levels.CopyTwiceIsIdentity | Assets/Scripts/Managers/LevelManager.cs:131 | the double copy returns the path in its original order |
| Levels.Path | Assets/Scripts/Managers/LevelManager.cs:122-133 | a stored path is handed out as is and the level is unchanged, whatever the grid now is; without one the path is generated first, a route comes back iff one exists, and it is a blue-to-red walk of the grid |
| Towers.Awake | Assets/Scripts/Towers/Tower.cs:35-39 | a new tower is at level 1 with an empty monster queue and no target, and takes its price, stats, ladder and element from the prefab (`Awake` at Tower.cs:102-109) |
| Towers.NextUpgrade | Assets/Scripts/Towers/Tower.cs:77-87 | the next rung is the one for the current level, and exists iff the level does not pass the ladder |
| Towers.Upgrade | Assets/Scripts/Towers/Tower.cs:201-211 | the rung's price moves from the currency into the tower's price, its bonuses are added and the level goes up by one |
| Towers.UpgradeAdvancesLadder | Assets/Scripts/Towers/Tower.cs:201-211 | after an upgrade the following rung, if any, is next |
| Towers.LadderIsFinite | Assets/Scripts/Towers/Tower.cs:77-87 | a tower past its last rung has no next upgrade |
| Towers.Enter | Assets/Scripts/Towers/Tower.cs:116-122 | a monster entering the range joins the back of the queue |
| Towers.Exit | Assets/Scripts/Towers/Tower.cs:124-130 | a monster leaving the range clears the target |
| Towers.Attack | Assets/Scripts/Towers/Tower.cs:132-163 | the tower shoots iff it can attack and its target is active; an active target is kept while alive and dropped once dead; otherwise the next monster is dequeued as target (if alive); only the target and the queue change |
| Towers.TargetsInArrivalOrder | Assets/Scripts/Towers/Tower.cs:116-163 | monsters are targeted in the order they entered the range |
| Upgrades.StormUpgrade | Assets/Scripts/Towers/TowerUpgrade.cs:45-51 | the four-argument rung sets its fields; the others are zero |
| Upgrades.FrostUpgrade | Assets/Scripts/Towers/TowerUpgrade.cs:61-68 | the five-argument rung sets its fields, including the slowing factor |
| Upgrades.TickUpgrade | Assets/Scripts/Towers/TowerUpgrade.cs:80-88 | the six-argument rung sets its fields, including tick time and special damage |
| Pooling.FindFree | Assets/Scripts/DesignPatterns/ObjectPool.cs:28-38 | the first inactive pooled object of the name, if any |
| Pooling.FindPrefab | Assets/Scripts/DesignPatterns/ObjectPool.cs:41-52 | the first prefab of the name, if any |
| Pooling.GetObject | Assets/Scripts/DesignPatterns/ObjectPool.cs:25-56 | reuses the first inactive object of the name, else adds a copy of the first prefab of that name, else returns null and changes nothing; nothing else changes |
| Pooling.ReleaseObject | Assets/Scripts/DesignPatterns/ObjectPool.cs:62-66 | only the released object changes, and it becomes inactive |
| Pooling.ReleaseThenReuse | Assets/Scripts/DesignPatterns/ObjectPool.cs:25-66 | a released object is handed out again when no earlier object of its name is free |
| Units.Animate | Assets/Scripts/Units/Unit.cs:82-121 | the facing follows the direction of the step; vertical moves win over horizontal ones; standing still keeps the facing |
| Units.Advance | Assets/Scripts/Units/Unit.cs:140-146 | the unit moves to the next waypoint, heads for it and pops it |
| Units.SetPath | Assets/Scripts/Units/Unit.cs:169-187 | a non-null path is taken and its first waypoint popped; a null path changes nothing |
| Units.Move | Assets/Scripts/Units/Unit.cs:126-162 | an inactive unit, or one not yet arrived, stays; on arrival it takes the next waypoint, or becomes inactive at the end |
| Units.WalksThePath | Assets/Scripts/Units/Unit.cs:126-187 | a unit given a path visits its waypoints in order and stops after the last one |
| Units.ArrivalsSplit | Assets/Scripts/Units/Unit.cs:126-162 | k + 1 arrivals are k arrivals and one more |
| Units.WalkFrom | Assets/Scripts/Units/Unit.cs:126-162 | a unit part way along a path goes on through the rest of it |
| Monsters.Awake | Assets/Scripts/Units/Monster.cs:26-83 | a new monster has resistance 2, all three debuff lists empty and its speed as maximum speed; its unit, element and health come from the prefab |
| Monsters.Alive | Assets/Scripts/Units/Monster.cs:51-57 | a monster is alive iff its health is above zero |
| Monsters.AddDebuff | Assets/Scripts/Units/Monster.cs:98-107 | a debuff is queued iff no active debuff has its class |
| Monsters.SameFrameDuplicates | Assets/Scripts/Units/Monster.cs:98-107 | two debuffs of one new class in one frame are both queued |
| Monsters.RemoveEach | Assets/Scripts/Units/Monster.cs:125-129 | removing each listed debuff is a multiset difference |
| Monsters.Expiring | Assets/Scripts/Debuffs/Debuff.cs:38-47 | the debuffs whose timer ran out, and no others |
| Monsters.HandleDebuffs | Assets/Scripts/Units/Monster.cs:112-139 | removals are applied, new debuffs become active, the queue empties, and the removal list is exactly the expired active debuffs |
| Monsters.TakeDamage | Assets/Scripts/Units/Monster.cs:146-175 | only an active monster is hurt; its own element is divided by the resistance, which then grows; the reward is 2 iff it dies, and a dead monster becomes inactive |
| Monsters.RewardPaidOnce | Assets/Scripts/Units/Monster.cs:146-175 | a killed monster pays nothing for later hits |
| Monsters.OwnElementResisted | Assets/Scripts/Units/Monster.cs:151-155 | a hit of its own element hurts no more than half the damage and raises the resistance |
| Monsters.Spawn | Assets/Scripts/Units/Monster.cs:215-232 | the health is reset, the debuffs are cleared, the path is set and the monster waits inactive for its scale-in |
| Monsters.Release | Assets/Scripts/Units/Monster.cs:255-268 | every debuff is queued for removal, the position is (0, 0) and the speed is the maximum |
| Monsters.ReleaseClearsDebuffs | Assets/Scripts/Units/Monster.cs:215-268 | after a release, the next spawn and its first update, the only active debuffs left are ones that were still queued as new at the release |
| Lists.RemoveFirst | Assets/Scripts/Managers/GameManager.cs:575 | `List.Remove` drops one occurrence: a multiset difference, unchanged when absent |
| Lists.RemoveFirstDistinct | Assets/Scripts/Managers/GameManager.cs:575 | removing from a list without repeats leaves one without repeats and without the element |
| Game.Initial | Assets/Scripts/Managers/GameManager.cs:52-67 | wave 0, monster health 15, not over, no active monsters |
| Game.GameOver | Assets/Scripts/Managers/GameManager.cs:543-554 | the game is over afterwards; the first call shows the menu; later calls change nothing |
| Game.GameOverIdempotent | Assets/Scripts/Managers/GameManager.cs:543-554 | calling it twice is calling it once |
| Game.SetLives | Assets/Scripts/Managers/GameManager.cs:164-184 | a value of 0 or less is stored as 0 and ends the game; the invariant is kept |
| Game.Start | Assets/Scripts/Managers/GameManager.cs:242-248 | 10 lives and 4 currency, and the invariant holds |
| Game.PickTower | Assets/Scripts/Managers/GameManager.cs:292-303 | the tower goes in hand iff it is affordable and no monster is on the field |
| Game.BuyTower | Assets/Scripts/Managers/GameManager.cs:320-331 | when affordable the price is paid and the hand emptied; otherwise nothing changes |
| Game.SelectTower | Assets/Scripts/Managers/GameManager.cs:337-363 | the tower is selected and the upgrade panel shown; nothing else changes, so the invariant is kept |
| Game.DeselectTower | Assets/Scripts/Managers/GameManager.cs:404-418 | nothing is selected and the upgrade panel is hidden; nothing else changes, so the invariant is kept |
| Game.ClickKeepsSelection | Assets/Scripts/Other/TileScript.cs:102-112 | a click selects a tile's tower only when it has one, so the selection always names a tower |
| Game.DeselectUndoesSelect | Assets/Scripts/Managers/GameManager.cs:337-418 | deselecting after a selection leaves the game as deselecting alone would |
| Game.SellTower | Assets/Scripts/Managers/GameManager.cs:423-441 | half the price, rounded toward zero, is refunded; the tile becomes empty without a tower; the selection is cleared; nothing else changes |
| Game.SellRefundsHalf | Assets/Scripts/Managers/GameManager.cs:429 | the refund is never more than the price and at most one short of half |
| Game.UpgradeTower | Assets/Scripts/Managers/GameManager.cs:446-458 | with a rung left and enough currency, the selected tower goes up a level and the rung is paid; otherwise nothing changes |
| Game.SpawnedFrame | Assets/Scripts/Managers/GameManager.cs:521 | handing out an object not in the active list keeps what is known of the spawned monsters |
| Game.SpawnedExtend | Assets/Scripts/Managers/GameManager.cs:533 | appending a correctly spawned monster extends the wave record |
| Game.HandedOutIsFresh | Assets/Scripts/Managers/GameManager.cs:521 | the pool never hands out a monster that is already active |
| Game.PoolOkExtend | Assets/Scripts/Managers/GameManager.cs:521-533 | the pool invariant survives handing out and adding a monster |
| Game.MissingPrefab | Assets/Scripts/Managers/GameManager.cs:521 | a null from the pool means one of the four monster prefabs is missing |
| Game.WaveStateAfterFailure | Assets/Scripts/Managers/GameManager.cs:521-524 | handing out a monster that cannot be spawned keeps the wave state |
| Game.WaveStateAfterSpawn | Assets/Scripts/Managers/GameManager.cs:521-533 | spawning and adding one monster moves the wave state one monster on |
| Game.MonsterName | Assets/Scripts/Managers/GameManager.cs:502-516 | the random index 0-3 names the blue, green, purple or red monster |
| Game.MonsterNamesDistinct | Assets/Scripts/Managers/GameManager.cs:502-516 | the four indices name four different monsters |
| Game.GetMonster | Assets/Scripts/DesignPatterns/ObjectPool.cs:41-51 | a monster instantiated from its prefab is handed out with resistance 2 and empty debuff lists; a reused one as it was released; every pooled monster stays valid |
| Game.SpawnNext | Assets/Scripts/Managers/GameManager.cs:499-536 | one loop round spawns the chosen kind with the current health, or stops because the pool has no such prefab or there is no route |
| Game.SpawnWave | Assets/Scripts/Managers/GameManager.cs:491-538 | the path is generated; with a route and all four prefabs, `wave` monsters of the chosen kinds are added with health rising by 5 per monster every third wave; without a route none; the invariant is kept |
| Game.StartWave | Assets/Scripts/Managers/GameManager.cs:472-485 | the wave count goes up, the wave button is hidden and the wave is spawned |
| Game.RemoveMonster | Assets/Scripts/Managers/GameManager.cs:572-583 | the monster leaves the list; the wave button shows iff the list is empty and the game goes on, or it already showed |
| Game.RemoveMonsterSound | Assets/Scripts/Managers/GameManager.cs:572-583 | removal keeps the invariant and the monster is no longer active |
| Game.SetMonster | Assets/Scripts/DesignPatterns/ObjectPool.cs:25-56 | updating a pooled monster's state changes only that object's state |
| Game.ReleaseMonster | Assets/Scripts/Units/Monster.cs:255-274 | the monster is released, removed from the active list and returned to the pool |
| Game.ReleaseMonsterSound | Assets/Scripts/Units/Monster.cs:255-274 | releasing keeps the invariant and the monster is no longer active |
| Game.HitMonster | Assets/Scripts/Units/Monster.cs:146-175 | a hit pays 2 currency iff it kills an active monster; the invariant is kept |
| Game.KillPaidOnce | Assets/Scripts/Units/Monster.cs:161-172 | two hits on one monster pay at most 2 |
| Game.ScaledIn | Assets/Scripts/Units/Monster.cs:184-208 | the end of the scale coroutine marks the monster active and changes nothing else; the invariant is kept |
| Game.ScaledInCanBeKilled | Assets/Scripts/Units/Monster.cs:201-228 | a spawned monster ignores hits until its scale-in ends, and afterwards a lethal hit of another element pays 2 |
| Game.EnterRedPortal | Assets/Scripts/Units/Monster.cs:234-250 | a monster at the red portal costs a life (ending the game at the last one) and is released |
| Game.EnterRedPortalSound | Assets/Scripts/Units/Monster.cs:234-250 | the invariant survives a leak |
| Game.Leaks | Assets/Scripts/Units/Monster.cs:234-250 | a run of leaks keeps the pool size and never undoes game over |
| Game.LivesRunOut | Assets/Scripts/Managers/GameManager.cs:164-184 | as many leaks as there are lives end the game, with the invariant kept |
| Tiles.PlaceTower | Assets/Scripts/Other/TileScript.cs:124-153 | the tile gets a level-1 tower at the button's price and stops being empty; the hover icon hides; the tower is bought when affordable |
| Tiles.NewWorld | Assets/Scripts/Managers/GameManager.cs:242-248 | a game starts iff the level text builds a grid; it starts with 10 lives, 4 currency, no monsters, no selection, every tile free and the handlers' invariant holding |
| Tiles.OnMouseOver | Assets/Scripts/Other/TileScript.cs:83-119 | with a tower in hand a click places it iff the path check passes and the tile is not the red portal; with an empty hand a click selects the tile's tower or deselects |
| Tiles.PlacedKeepsRoute | Assets/Scripts/Other/TileScript.cs:93-100 | a placement that passed the check keeps the world consistent and leaves a blue-to-red route |
| Tiles.Pick | Assets/Scripts/Managers/GameManager.cs:292-303 | picking a tower keeps the world consistent |
| Tiles.Sell | Assets/Scripts/Managers/GameManager.cs:423-441 | selling keeps the world consistent and refunds half the price |
| Tiles.SellKeepsRoute | Assets/Scripts/Managers/GameManager.cs:432 | selling opens a tile, so the monsters' route survives |
| Tiles.Upgrade | Assets/Scripts/Managers/GameManager.cs:446-458 | upgrading keeps the world consistent and never raises the currency |
| Tiles.UpgradeKeepsRoute | Assets/Scripts/Managers/GameManager.cs:446-458 | upgrading neither makes nor breaks the route |
| Tiles.PlaceThenSellRestores | Assets/Scripts/Other/TileScript.cs:124-153 | placing on a free tile, selecting and selling gives the tile back exactly, refunding half the price |

## Left out

- Floating point. Health, damage, proc chance and debuff duration are `real`; C# `float` rounding is not modelled.
- Integer width. Currency, lives, wave and health are unbounded integers; 32-bit overflow is not modelled.
- `Stat` (the health bar) is not part of this model. Health is a plain number, and a kill is health at or below zero.
- Time. Frame timing, `WaitForSeconds`, the attack cooldown timer and the motion inside `Vector2.MoveTowards` are not modelled. Arrival at a waypoint and a debuff's expiry are inputs.
- Coroutines. `SpawnWave` runs to completion as one step, so a monster cannot die or leak between two spawns of the same wave. The end of a `Scale` coroutine is the step `Game.ScaledIn`, which marks the monster active: after `Spawn` it is taken separately, at a moment the caller chooses, and `Game.EnterRedPortal` takes it at once before releasing the monster.
- `Levels.Path`: because `SpawnWave` is one step, the model never hands a spawned monster a stale path. In the source a tower placed during the 2.5 s wait between two spawns leaves `fullPath` as generated at the start of the wave, and the next monster gets the old route through the new tower. `Levels.Path` itself states that a cached path is handed out unchecked.
- Presentation. Text fields, colours, sounds, animator triggers, sorting orders, the hover sprite and the camera limits are not modelled; UI panels are visibility flags.
- World positions. A waypoint's world position is stood for by its grid position.
- The WebGL build reads a hard-coded map (LevelManager.cs lines 163-167); the model builds levels from rows of text only.
- `int.Parse` of a non-digit and `Tiles[...]` on a missing key throw in the source; `Levels.CreateLevel` returns `None` for them.
- `Levels.CreateLevel`: a row shorter than the first and a digit at least the number of tile prefabs are index-out-of-range exceptions in the source; the model returns `None` for both and does not model the tiles placed before the exception.
- `AStar.GetPath`: the ensures do not claim the returned path is a shortest one. The open list's `OrderBy(F).First()` breaks ties in enumeration order; the model allows any least-F node.
- `Levels.GeneratePath`: the cached `fullPath` keeps copies of the nodes, with the G, H and F values of the search that produced it. In the source it holds the shared node-cache objects, which the next search (`CheckPath` runs one every frame while a tower is in hand) resets and overwrites; only their positions survive. Nothing reads G, H or F from the cached path, so no result of the model depends on this.
- `AStar.GetPath` does not model a node cache built for a different grid. The source creates the cache once per run, and every level has the same tile set.
- `Game.SpawnWave`: a null from the pool or a missing path throws in the source and ends the coroutine. The model stops the wave there and keeps the object already handed out, as the pool left it. In the source a missing path throws inside `Monster.Spawn` after it has reset the health, cleared the debuffs and started the `Scale` coroutine that later marks the monster active; the model's object gets none of these. This only arises on a map with no blue-to-red route.
- `Game.HitMonster` is the common effect of `Projectile.OnTriggerEnter2D`, `PoisonSplash` and the fire debuff's tick. The projectiles, the tower subclasses' debuffs and the debuff subclasses' effects are not part of this model.
- `Tiles.Pick`: its requires asks for non-negative tower and rung prices. The source does not check this; every tower's ladder in the source uses positive prices.
- `DropTower` (the escape key), `Restart`, the menu, the stats panel and the tooltip text are not modelled.
- The `Currency` setter's `Changed` event only recolours the shop buttons and is not modelled.
- `Player` and the commented-out debug code are not part of this model.

=== FILE: AStar.dfy ===
/**
 The grid A* search (Astar.cs). The static node dictionary becomes the
 `cache` parameter; the HashSet open and closed lists become sets of grid
 positions; the returned Stack<Node> is a sequence whose first element is the
 one `Pop` returns first.
 */
module AStar {
  import opened Options
  import opened Points
  import opened Grids
  import opened Nodes
  import opened Moves

  /** The node dictionary matches the grid: one node per tile, stored under its own position. */
  ghost predicate NodesFor(g: Grid, nodes: map<Point, Node>)
  {
    && nodes.Keys == g.tiles.Keys
    && (forall p :: p in nodes ==> nodes[p].gridPosition == p)
  }

  /** `CreateNodes`: one fresh node per tile, keyed by the tile's grid position. */
  function CreateNodes(g: Grid): (nodes: map<Point, Node>)
    requires WellFormed(g)
    ensures NodesFor(g, nodes)
    ensures forall p :: p in nodes ==> IsReset(nodes[p])
  {
    map p | p in g.tiles :: NewNode(g.tiles[p])
  }

  /** The reset loop at the top of `GetPath`. */
  function ResetAll(nodes: map<Point, Node>): (r: map<Point, Node>)
    ensures r.Keys == nodes.Keys
    ensures forall p :: p in r ==> r[p].gridPosition == nodes[p].gridPosition && IsReset(r[p])
  {
    map p | p in nodes :: Reset(nodes[p])
  }

  /** After the reset nothing of an earlier search survives: two caches over the same grid reset to the same nodes. */
  lemma ResetAllForgets(g: Grid, c1: map<Point, Node>, c2: map<Point, Node>)
    requires NodesFor(g, c1) && NodesFor(g, c2)
    ensures ResetAll(c1) == ResetAll(c2)
  {
    assert forall p :: p in c1 ==> c1[p].gridPosition == c2[p].gridPosition;
  }

  /** The search state: the node dictionary and the open and closed lists. */
  datatype Search = Search(nodes: map<Point, Node>, open: set<Point>, closed: set<Point>)

  ghost predicate Shape(g: Grid, s: Search)
  {
    && WellFormed(g)
    && NodesFor(g, s.nodes)
    && s.open <= s.nodes.Keys && s.closed <= s.nodes.Keys
    && s.open !! s.closed
  }

  /**
   `p` hangs off a node of `parents` by an admissible move, and its G/H/F agree
   with that parent's G.
   */
  ghost predicate Linked(g: Grid, start: Point, goal: Point, nodes: map<Point, Node>, p: Point, parents: set<Point>)
    requires WellFormed(g) && p in nodes
  {
    var n := nodes[p];
    && n.parent.Some?
    && n.parent.value in parents
    && n.parent.value in nodes
    && Admissible(g, start, n.parent.value, p)
    && n.g == nodes[n.parent.value].g + MoveCost(n.parent.value, p)
    && n.h == Heuristic(p, goal)
    && n.f == n.g + n.h
  }

  /**
   The predecessor tree: the start keeps its reset values, every other seen node
   (open or closed) hangs off a node of `parents`, and all G scores are non-negative.
   */
  ghost predicate Tree(g: Grid, start: Point, goal: Point, s: Search, parents: set<Point>)
    requires Shape(g, s)
  {
    && start in s.nodes
    && s.nodes[start].g == 0 && s.nodes[start].parent.None?
    && (forall p :: p in s.open || p in s.closed ==> s.nodes[p].g >= 0)
    && (forall p :: (p in s.open || p in s.closed) && p != start ==> Linked(g, start, goal, s.nodes, p, parents))
  }

  /** Every admissible neighbour of an expanded node has been seen. */
  ghost predicate Complete(g: Grid, start: Point, s: Search, expanded: set<Point>)
    requires Shape(g, s)
  {
    forall c, k :: c in expanded && 0 <= k < 9 && Admissible(g, start, c, Neighbour(c, k)) ==>
      Neighbour(c, k) in s.open || Neighbour(c, k) in s.closed
  }

  /** `start` has at least one neighbour the search admits. */
  predicate HasExit(g: Grid, start: Point)
    requires WellFormed(g)
  {
    exists k :: 0 <= k < 9 && Admissible(g, start, start, Neighbour(start, k))
  }

  /**
   One pass of the body of the inner `for y` loop: examine the k-th neighbour
   of `current`. Only that neighbour's node can change, the closed list is
   left alone, and the open list can only gain that neighbour.
   */
  function Visit(g: Grid, start: Point, goal: Point, s: Search, current: Point, k: int): (r: Search)
    requires Shape(g, s) && current in s.nodes && goal in s.nodes && 0 <= k < 9
    ensures r.closed == s.closed && s.open <= r.open <= s.open + {Neighbour(current, k)}
    ensures r.nodes.Keys == s.nodes.Keys
    ensures forall p :: p in s.nodes && p != Neighbour(current, k) ==> r.nodes[p] == s.nodes[p]
  {
    var nb := Neighbour(current, k);
    if !(InBounds(g.size, nb) && nb != start && Walkable(g, nb) && nb != current) then s
    else if !AxialOffset(current, nb) && !ConnectedDiagonally(g, current, nb) then s
    else
      var cost := MoveCost(current, nb);
      if nb in s.open then
        if s.nodes[current].g + cost < s.nodes[nb].g then
          s.(nodes := s.nodes[nb := CalcValues(s.nodes[nb], s.nodes[current], s.nodes[goal], cost)])
        else s
      else if nb !in s.closed then
        s.(nodes := s.nodes[nb := CalcValues(s.nodes[nb], s.nodes[current], s.nodes[goal], cost)],
           open := s.open + {nb})
      else s
  }

  /**
   Examining one neighbour keeps the tree (with `current` as the new parent),
   only adds to the open list, never touches a closed node, `current` or the
   start, and leaves an admissible neighbour seen.
   */
  lemma VisitKeepsTree(g: Grid, start: Point, goal: Point, s: Search, current: Point, k: int)
    requires Shape(g, s) && current in s.open && goal in s.nodes && 0 <= k < 9
    requires Tree(g, start, goal, s, s.closed + {current})
    ensures var s' := Visit(g, start, goal, s, current, k);
      && Shape(g, s')
      && s'.closed == s.closed && s.open <= s'.open
      && s'.nodes[current] == s.nodes[current]
      && Tree(g, start, goal, s', s.closed + {current})
      && (Admissible(g, start, current, Neighbour(current, k)) ==>
            Neighbour(current, k) in s'.open || Neighbour(current, k) in s'.closed)
  {
    var nb := Neighbour(current, k);
    var s' := Visit(g, start, goal, s, current, k);
    NeighbourEnumeration(current, k);
    if s' != s {
      assert nb !in s.closed && nb != current && nb != start;
      assert Admissible(g, start, current, nb);
      assert s'.open == s.open + {nb} && s'.closed == s.closed;
      RelinkKeepsTree(g, start, goal, s, s', current, nb);
    }
  }

  /** Hanging `nb` off `current` (a new open node, or a cheaper parent for an open one) keeps the tree. */
  lemma RelinkKeepsTree(g: Grid, start: Point, goal: Point, s: Search, s': Search, current: Point, nb: Point)
    requires Shape(g, s) && current in s.open && goal in s.nodes
    requires Tree(g, start, goal, s, s.closed + {current})
    requires nb in s.nodes && nb !in s.closed && nb != current && nb != start && Admissible(g, start, current, nb)
    requires s'.open == s.open + {nb} && s'.closed == s.closed
    requires s'.nodes == s.nodes[nb := CalcValues(s.nodes[nb], s.nodes[current], s.nodes[goal], MoveCost(current, nb))]
    ensures Shape(g, s') && Tree(g, start, goal, s', s.closed + {current})
  {
    assert Linked(g, start, goal, s'.nodes, nb, s.closed + {current});
    forall p | (p in s'.open || p in s'.closed) && p != start && p != nb
      ensures Linked(g, start, goal, s'.nodes, p, s.closed + {current})
    {
      assert Linked(g, start, goal, s.nodes, p, s.closed + {current});
    }
  }

  /** The `for x` / `for y` loops: examine all nine offsets around `current`. */
  method Expand(g: Grid, start: Point, goal: Point, s: Search, current: Point) returns (t: Search)
    requires Shape(g, s) && current in s.open && goal in s.nodes
    requires Tree(g, start, goal, s, s.closed)
    requires Complete(g, start, s, s.closed)
    ensures Shape(g, t) && t.closed == s.closed && s.open <= t.open
    ensures t.nodes[current] == s.nodes[current]
    ensures Tree(g, start, goal, t, s.closed + {current})
    ensures Complete(g, start, t, s.closed + {current})
  {
    t := s;
    for k := 0 to 9
      invariant Shape(g, t) && t.closed == s.closed && s.open <= t.open
      invariant t.nodes[current] == s.nodes[current]
      invariant Tree(g, start, goal, t, s.closed + {current})
      invariant Complete(g, start, t, s.closed)
      invariant forall j :: 0 <= j < k && Admissible(g, start, current, Neighbour(current, j)) ==>
        Neighbour(current, j) in t.open || Neighbour(current, j) in t.closed
    {
      var t0 := t;
      VisitKeepsTree(g, start, goal, t0, current, k);
      t := Visit(g, start, goal, t0, current, k);
      forall j | 0 <= j < k + 1 && Admissible(g, start, current, Neighbour(current, j))
        ensures Neighbour(current, j) in t.open || Neighbour(current, j) in t.closed
      {
        if j < k {
          assert Neighbour(current, j) in t0.open || Neighbour(current, j) in t0.closed;
        }
      }
      CompleteGrows(g, start, t0, t, s.closed);
    }
    CompleteAdd(g, start, t, s.closed, current);
  }

  /** Seeing more nodes keeps every expanded node's neighbours seen. */
  lemma CompleteGrows(g: Grid, start: Point, s: Search, t: Search, expanded: set<Point>)
    requires Shape(g, s) && Shape(g, t) && s.open <= t.open && s.closed <= t.closed
    requires Complete(g, start, s, expanded)
    ensures Complete(g, start, t, expanded)
  {
    forall c, j | c in expanded && 0 <= j < 9 && Admissible(g, start, c, Neighbour(c, j))
      ensures Neighbour(c, j) in t.open || Neighbour(c, j) in t.closed
    {
      assert Neighbour(c, j) in s.open || Neighbour(c, j) in s.closed;
    }
  }

  /** Once all nine neighbours of `c` are seen, `c` joins the expanded nodes. */
  lemma CompleteAdd(g: Grid, start: Point, t: Search, expanded: set<Point>, c: Point)
    requires Shape(g, t) && Complete(g, start, t, expanded)
    requires forall j :: 0 <= j < 9 && Admissible(g, start, c, Neighbour(c, j)) ==>
      Neighbour(c, j) in t.open || Neighbour(c, j) in t.closed
    ensures Complete(g, start, t, expanded + {c})
  {
    forall c', j | c' in expanded + {c} && 0 <= j < 9 && Admissible(g, start, c', Neighbour(c', j))
      ensures Neighbour(c', j) in t.open || Neighbour(c', j) in t.closed
    {
      if c' != c {
        assert c' in expanded;
      }
    }
  }

  /** `openList.OrderBy(x => x.F).First()`: an open node of least F; ties go to whichever the enumeration meets first. */
  method PickMin(nodes: map<Point, Node>, open: set<Point>) returns (m: Point)
    requires open != {} && open <= nodes.Keys
    ensures m in open
    ensures forall p :: p in open ==> nodes[m].f <= nodes[p].f
  {
    m :| m in open;
    var rest := open - {m};
    while rest != {}
      invariant rest <= open && m in open
      invariant forall p :: p in open && p !in rest ==> nodes[m].f <= nodes[p].f
      decreases rest
    {
      var p :| p in rest;
      if nodes[p].f < nodes[m].f {
        m := p;
      }
      rest := rest - {p};
    }
  }

  function Positions(ns: seq<Node>): (ps: seq<Point>)
    ensures |ps| == |ns|
    ensures forall i :: 0 <= i < |ns| ==> ps[i] == ns[i].gridPosition
  {
    seq(|ns|, i requires 0 <= i < |ns| => ns[i].gridPosition)
  }

  /** The waypoint before `path[i]`, the route starting at `from`. */
  function Prev(from: Point, path: seq<Node>, i: int): Point
    requires 0 <= i < |path|
  {
    if i == 0 then from else path[i - 1].gridPosition
  }

  /** The G score before `path[i]`, the route starting with score `g0`. */
  function PrevG(g0: int, path: seq<Node>, i: int): int
    requires 0 <= i < |path|
  {
    if i == 0 then g0 else path[i - 1].g
  }

  /**
   Each node's parent is the waypoint before it, its G is the predecessor's G
   plus the step cost, and its H and F are the goal heuristic and G + H.
   */
  ghost predicate Links(from: Point, g0: int, goal: Point, path: seq<Node>)
  {
    forall i :: 0 <= i < |path| ==>
      && path[i].parent == Some(Prev(from, path, i))
      && path[i].g == PrevG(g0, path, i) + MoveCost(Prev(from, path, i), path[i].gridPosition)
      && path[i].h == Heuristic(path[i].gridPosition, goal)
      && path[i].f == path[i].g + path[i].h
  }

  /** What the popped waypoints carry: the links above from the start, and the last G is the cost of the whole route. */
  ghost predicate Bookkeeping(start: Point, goal: Point, path: seq<Node>)
  {
    && Links(start, 0, goal, path)
    && (|path| > 0 ==> path[|path| - 1].g == PathCost([start] + Positions(path)))
  }

  lemma LinksPrepend(q: Point, gq: int, goal: Point, n: Node, path: seq<Node>)
    requires Links(n.gridPosition, n.g, goal, path)
    requires n.parent == Some(q) && n.g == gq + MoveCost(q, n.gridPosition)
    requires n.h == Heuristic(n.gridPosition, goal) && n.f == n.g + n.h
    ensures Links(q, gq, goal, [n] + path)
  {
    var p' := [n] + path;
    forall i | 0 < i < |p'|
      ensures p'[i] == path[i - 1]
      ensures Prev(q, p', i) == Prev(n.gridPosition, path, i - 1)
      ensures PrevG(gq, p', i) == PrevG(n.g, path, i - 1)
    {
    }
  }

  lemma PositionsPrepend(n: Node, path: seq<Node>)
    ensures Positions([n] + path) == [n.gridPosition] + Positions(path)
  {
  }

  lemma PathCostPrepend(q: Point, n: Node, path: seq<Node>)
    ensures PathCost([q] + Positions([n] + path))
         == MoveCost(q, n.gridPosition) + PathCost([n.gridPosition] + Positions(path))
  {
    var t := [q] + Positions([n] + path);
    assert t[0] == q && t[1] == n.gridPosition;
    assert t[1..] == [n.gridPosition] + Positions(path);
  }

  lemma ChainPrepend(g: Grid, start: Point, q: Point, t: seq<Point>)
    requires WellFormed(g) && Chain(g, start, t) && |t| > 0 && Admissible(g, start, q, t[0])
    ensures Chain(g, start, [q] + t)
  {
    var t' := [q] + t;
    forall i | 1 < i < |t'| ensures Admissible(g, start, t'[i - 1], t'[i]) {
      assert t'[i - 1] == t[i - 2] && t'[i] == t[i - 1];
    }
  }

  /** Every seen node other than the start hangs off another seen node. */
  ghost predicate SeenTree(g: Grid, start: Point, goal: Point, nodes: map<Point, Node>, seen: set<Point>)
    requires WellFormed(g)
  {
    && seen <= nodes.Keys
    && start in seen && nodes[start].g == 0
    && (forall p :: p in seen ==> nodes[p].g >= 0)
    && (forall p :: p in seen && p != start ==> Linked(g, start, goal, nodes, p, seen))
  }

  lemma TreeIsSeenTree(g: Grid, start: Point, goal: Point, s: Search)
    requires Shape(g, s) && Tree(g, start, goal, s, s.closed)
    requires start in s.open || start in s.closed
    ensures SeenTree(g, start, goal, s.nodes, s.open + s.closed)
  {
    forall p | p in s.open + s.closed && p != start
      ensures Linked(g, start, goal, s.nodes, p, s.open + s.closed)
    {
      assert Linked(g, start, goal, s.nodes, p, s.closed);
    }
  }

  /** The reconstruction loop's invariant: `path` leads from `cur` to the goal along parent links. */
  ghost predicate Unwound(g: Grid, start: Point, goal: Point, nodes: map<Point, Node>, seen: set<Point>,
                          cur: Point, path: seq<Node>)
    requires WellFormed(g) && seen <= nodes.Keys
  {
    && cur in seen
    && (start == goal ==> path == [])
    && (path == [] ==> cur == goal)
    && (path != [] ==> path[|path| - 1].gridPosition == goal)
    && Chain(g, start, [cur] + Positions(path))
    && Links(cur, nodes[cur].g, goal, path)
    && (path != [] ==> path[|path| - 1].g == nodes[cur].g + PathCost([cur] + Positions(path)))
  }

  /** One pop of the reconstruction loop: step to the parent, which has a smaller G. */
  lemma UnwindStep(g: Grid, start: Point, goal: Point, nodes: map<Point, Node>, seen: set<Point>,
                   cur: Point, path: seq<Node>)
    requires WellFormed(g) && SeenTree(g, start, goal, nodes, seen)
    requires forall p :: p in nodes ==> nodes[p].gridPosition == p
    requires Unwound(g, start, goal, nodes, seen, cur, path) && cur != start
    ensures nodes[cur].parent.Some? && nodes[cur].parent.value in seen
    ensures nodes[nodes[cur].parent.value].g < nodes[cur].g
    ensures Unwound(g, start, goal, nodes, seen, nodes[cur].parent.value, [nodes[cur]] + path)
  {
    assert Linked(g, start, goal, nodes, cur, seen);
    var n := nodes[cur];
    var q := n.parent.value;
    LinksPrepend(q, nodes[q].g, goal, n, path);
    PathCostPrepend(q, n, path);
    ChainPrepend(g, start, q, [cur] + Positions(path));
    PositionsPrepend(n, path);
    assert n.g == nodes[q].g + MoveCost(q, cur);
    assert MoveCost(q, cur) >= 10;
  }

  /** The reconstruction loop: push the goal, then its parent, and so on until the start is reached. */
  method Reconstruct(g: Grid, start: Point, goal: Point, nodes: map<Point, Node>, seen: set<Point>)
    returns (path: seq<Node>)
    requires WellFormed(g) && SeenTree(g, start, goal, nodes, seen) && goal in seen
    requires forall p :: p in nodes ==> nodes[p].gridPosition == p
    ensures start == goal ==> path == []
    ensures start != goal ==> IsPath(g, start, goal, Positions(path))
    ensures Bookkeeping(start, goal, path)
  {
    var cur := goal;
    path := [];
    while cur != start
      invariant Unwound(g, start, goal, nodes, seen, cur, path)
      decreases nodes[cur].g
    {
      UnwindStep(g, start, goal, nodes, seen, cur, path);
      path := [nodes[cur]] + path;
      cur := nodes[cur].parent.value;
    }
  }

  /** What holds at the head of each round of the main loop. */
  ghost predicate Progress(g: Grid, start: Point, goal: Point, s: Search, current: Point)
  {
    && Shape(g, s)
    && Tree(g, start, goal, s, s.closed)
    && Complete(g, start, s, s.closed)
    && current in s.nodes && goal in s.nodes
    && (s.open != {} ==> current in s.open)
    && ((s.closed == {} && s.open == {start} && current == start) || start in s.closed)
    && (goal in s.closed ==> goal == start)
    && (current == goal ==> current == start && s.closed == {})
    && (start == goal && s.closed != {} ==> HasExit(g, start))
  }

  /** Moving an expanded node from the open list to the closed list keeps the tree and the completeness of the closed list. */
  lemma CloseKeepsTree(g: Grid, start: Point, goal: Point, t: Search, current: Point)
    requires Shape(g, t) && current in t.open
    requires Tree(g, start, goal, t, t.closed + {current})
    requires Complete(g, start, t, t.closed + {current})
    ensures var t' := t.(open := t.open - {current}, closed := t.closed + {current});
      && Shape(g, t') && t'.nodes == t.nodes && t'.open + t'.closed == t.open + t.closed
      && Tree(g, start, goal, t', t'.closed)
      && Complete(g, start, t', t'.closed)
  {
    var t' := t.(open := t.open - {current}, closed := t.closed + {current});
    assert t'.open + t'.closed == t.open + t.closed;
    forall p | (p in t'.open || p in t'.closed) && p != start
      ensures Linked(g, start, goal, t'.nodes, p, t'.closed)
    {
      assert Linked(g, start, goal, t.nodes, p, t.closed + {current});
    }
    forall c, j | c in t'.closed && 0 <= j < 9 && Admissible(g, start, c, Neighbour(c, j))
      ensures Neighbour(c, j) in t'.open || Neighbour(c, j) in t'.closed
    {
      assert Neighbour(c, j) in t.open || Neighbour(c, j) in t.closed;
    }
  }

  /**
   One round of the main loop: expand `current`, move it to the closed list and
   pick the next open node of least F. When that node is the goal the seen nodes
   form a tree ready for reconstruction.
   */
  method Round(g: Grid, start: Point, goal: Point, s: Search, current: Point) returns (t: Search, next: Point)
    requires Progress(g, start, goal, s, current) && s.open != {}
    ensures current in g.tiles && current !in s.closed && t.closed == s.closed + {current}
    ensures Shape(g, t)
    ensures next != goal ==> Progress(g, start, goal, t, next)
    ensures next == goal ==> SeenTree(g, start, goal, t.nodes, t.open + t.closed) && goal in t.open + t.closed
    ensures next == goal && start == goal ==> !HasExit(g, start)
  {
    var first := s.closed == {};
    t := Expand(g, start, goal, s, current);
    CloseKeepsTree(g, start, goal, t, current);
    t := t.(open := t.open - {current}, closed := t.closed + {current});
    next := current;
    if t.open != {} {
      next := PickMin(t.nodes, t.open);
      if first && start == goal {
        assert Linked(g, start, goal, t.nodes, next, {start});
        AdjacentIsNeighbour(start, next);
      }
    }
    if next == goal {
      if start == goal {
        assert t.open == {};
        forall k | 0 <= k < 9 ensures !Admissible(g, start, start, Neighbour(start, k)) {
        }
      }
      TreeIsSeenTree(g, start, goal, t);
    }
  }

  /**
   `GetPath`. Returns the waypoints in pop order, or None for the source's `null`,
   together with the node dictionary, created on the first call and reused after.
   The search admits only in-bounds, walkable, non-start neighbours, refuses
   diagonals past a blocked corner, relaxes an open node only on strict
   improvement and never reopens a closed one. It does not promise the cheapest
   route; it promises a valid one, with consistent costs, whenever one exists.
   */
  method GetPath(g: Grid, cache: Option<map<Point, Node>>, start: Point, goal: Point)
    returns (r: Option<seq<Node>>, nodes: map<Point, Node>)
    requires WellFormed(g) && (cache.Some? ==> NodesFor(g, cache.value))
    requires InBounds(g.size, start) && InBounds(g.size, goal)
    ensures NodesFor(g, nodes)
    ensures cache.Some? ==> nodes.Keys == cache.value.Keys
    ensures start != goal ==> (r.Some? <==> Reachable(g, start, goal))
    ensures r.Some? && start != goal ==> IsPath(g, start, goal, Positions(r.value))
    ensures r.Some? ==> Bookkeeping(start, goal, r.value)
    ensures start == goal ==> (r.Some? <==> !HasExit(g, start))
    ensures start == goal && r.Some? ==> r.value == []
  {
    var created := if cache.Some? then cache.value else CreateNodes(g);
    var s := Search(ResetAll(created), {start}, {});
    var current := start;
    while s.open != {}
      invariant Progress(g, start, goal, s, current)
      decreases g.tiles.Keys - s.closed
    {
      s, current := Round(g, start, goal, s, current);
      if current == goal {
        var path := Reconstruct(g, start, goal, s.nodes, s.open + s.closed);
        return Some(path), s.nodes;
      }
    }
    if start != goal && Reachable(g, start, goal) {
      var w :| IsPath(g, start, goal, w);
      ExhaustedSearchCoversRoutes(g, start, s, w);
      assert false;
    }
    r, nodes := None, s.nodes;
  }

  /** Once the open list is empty, every route from the start stays inside the closed list. */
  lemma ExhaustedSearchCoversRoutes(g: Grid, start: Point, s: Search, w: seq<Point>)
    requires Shape(g, s) && s.open == {} && start in s.closed
    requires Complete(g, start, s, s.closed)
    requires Chain(g, start, [start] + w)
    ensures forall i :: 0 <= i < |w| ==> w[i] in s.closed
    decreases |w|
  {
    if |w| > 0 {
      var n := |w| - 1;
      var pre := w[..n];
      assert Chain(g, start, [start] + pre) by {
        forall i | 0 < i < |[start] + pre| ensures Admissible(g, start, ([start] + pre)[i - 1], ([start] + pre)[i]) {
          assert ([start] + pre)[i] == ([start] + w)[i] && ([start] + pre)[i - 1] == ([start] + w)[i - 1];
        }
      }
      ExhaustedSearchCoversRoutes(g, start, s, pre);
      var prev := ([start] + w)[n];
      assert Admissible(g, start, prev, w[n]) by { assert ([start] + w)[n + 1] == w[n]; }
      assert prev in s.closed by { if n > 0 { assert prev == pre[n - 1]; } }
      AdjacentIsNeighbour(prev, w[n]);
      forall i | 0 <= i < |w| ensures w[i] in s.closed {
        if i < n { assert w[i] == pre[i]; }
      }
    }
  }
}

=== FILE: Elements.dfy ===
/** The damage/element enumeration shared by towers and monsters (GameManager.cs). */
module Elements {

  datatype Element = Storm | Fire | Frost | Poison | NoElement
}

=== FILE: Game.dfy ===
/**
 GameManager: lives, currency, the tower in hand and the selected tower,
 buying, selling and upgrading towers, and the waves of monsters drawn from
 the object pool. UI panels are kept as visibility flags; text and sound are
 not modelled.
 */
module Game {
  import opened Options
  import opened Points
  import opened Elements
  import opened Grids
  import opened Towers
  import opened Moves
  import opened AStar
  import opened Levels
  import opened Pooling
  import opened Units
  import opened Monsters
  import opened Lists
  import opened Nodes

  /** A shop button: its price and the tower prefab it places. */
  datatype TowerBtn = TowerBtn(price: int, prefab: Tower)

  /**
   The manager's state. A monster is its index in the pool; the selected tower
   is referred to by its tile's position.
   */
  datatype Game = Game(
    currency: int,
    lives: int,
    wave: int,
    health: int,
    gameOver: bool,
    activeMonsters: seq<nat>,
    pool: Pool<Monster>,
    clickedBtn: Option<TowerBtn>,
    selected: Option<Point>,
    hoverVisible: bool,
    upgradePanel: bool,
    waveBtn: bool,
    gameOverMenu: bool)

  /** The field initialisers: wave 0, monster health 15, not over, no monsters; lives and currency are set by `Start`. */
  function Initial(pool: Pool<Monster>): (g: Game)
    ensures g.wave == 0 && g.health == 15 && !g.gameOver && g.activeMonsters == [] && g.pool == pool
  {
    Game(0, 0, 0, 15, false, [], pool, None, None, false, false, true, false)
  }

  /** Every pooled monster has resistance at least 2. */
  ghost predicate MonstersValid(pool: Pool<Monster>)
  {
    forall j :: 0 <= j < |pool.objects| ==> Monsters.Valid(pool.objects[j].value)
  }

  /** Every index in the active list is a distinct, active object of the pool, and every pooled monster is valid. */
  ghost predicate PoolOk(active: seq<nat>, pool: Pool<Monster>)
  {
    && (forall i :: 0 <= i < |active| ==> active[i] < |pool.objects| && pool.objects[active[i]].active)
    && Distinct(active)
    && MonstersValid(pool)
  }

  /** The manager's invariant once `Start` has run. */
  ghost predicate Sound(g: Game)
  {
    && g.currency >= 0
    && g.lives >= 0 && g.wave >= 0
    && (g.lives == 0 ==> g.gameOver)
    && (g.gameOver ==> g.gameOverMenu)
    && PoolOk(g.activeMonsters, g.pool)
  }

  /** `GameOver`: the first call ends the game and shows the menu; later calls do nothing. */
  function GameOver(g: Game): (r: Game)
    ensures r.gameOver && (!g.gameOver ==> r.gameOverMenu)
    ensures g.gameOver ==> r == g
    ensures r == g.(gameOver := true, gameOverMenu := r.gameOverMenu)
  {
    if !g.gameOver then g.(gameOver := true, gameOverMenu := true) else g
  }

  lemma GameOverIdempotent(g: Game)
    ensures GameOver(GameOver(g)) == GameOver(g)
  {
  }

  /** The `Lives` setter: a value of zero or less is stored as 0 and ends the game. */
  function SetLives(g: Game, value: int): (r: Game)
    ensures r.lives == if value <= 0 then 0 else value
    ensures r.gameOver <==> g.gameOver || value <= 0
    ensures value > 0 ==> r == g.(lives := value)
    ensures r.currency == g.currency && r.activeMonsters == g.activeMonsters && r.pool == g.pool
    ensures Sound(g) ==> Sound(r)
  {
    var g1 := g.(lives := value);
    if g1.lives <= 0 then GameOver(g1.(lives := 0)) else g1
  }

  /** `Start`: 10 lives and 4 currency. */
  function Start(g: Game): (r: Game)
    requires PoolOk(g.activeMonsters, g.pool) && !g.gameOver && g.wave >= 0
    ensures Sound(r) && r.lives == 10 && r.currency == 4 && !r.gameOver
  {
    SetLives(g, 10).(currency := 4)
  }

  /** `PickTower`: take a tower in hand only if it is affordable and no monster is on the field. */
  function PickTower(g: Game, btn: TowerBtn): (r: Game)
    ensures (g.currency >= btn.price && |g.activeMonsters| == 0) ==> r == g.(clickedBtn := Some(btn), hoverVisible := true)
    ensures !(g.currency >= btn.price && |g.activeMonsters| == 0) ==> r == g
    ensures Sound(g) ==> Sound(r)
  {
    if g.currency >= btn.price && |g.activeMonsters| <= 0 then g.(clickedBtn := Some(btn), hoverVisible := true) else g
  }

  /** `BuyTower`: pay for the tower in hand and empty the hand, when affordable; otherwise nothing happens. */
  function BuyTower(g: Game): (r: Game)
    requires g.clickedBtn.Some?
    ensures g.currency >= g.clickedBtn.value.price ==>
      r.currency == g.currency - g.clickedBtn.value.price && r.clickedBtn.None?
    ensures g.currency < g.clickedBtn.value.price ==> r == g
    ensures r == g.(currency := r.currency, clickedBtn := r.clickedBtn)
    ensures Sound(g) ==> Sound(r)
  {
    if g.currency >= g.clickedBtn.value.price then
      g.(currency := g.currency - g.clickedBtn.value.price, clickedBtn := None)
    else g
  }

  /** `SelectTower`: the clicked tower becomes the selected one and the upgrade panel opens; nothing else changes. */
  function SelectTower(g: Game, p: Point): (r: Game)
    ensures r.selected == Some(p) && r.upgradePanel
    ensures r == g.(selected := r.selected, upgradePanel := r.upgradePanel)
    ensures Sound(g) ==> Sound(r)
  {
    g.(selected := Some(p), upgradePanel := true)
  }

  /** `DeselectTower`: nothing is selected and the upgrade panel closes; nothing else changes. */
  function DeselectTower(g: Game): (r: Game)
    ensures r.selected.None? && !r.upgradePanel
    ensures r == g.(selected := r.selected, upgradePanel := r.upgradePanel)
    ensures Sound(g) ==> Sound(r)
  {
    g.(selected := None, upgradePanel := false)
  }

  /** The selection, if any, names a tile that holds a tower. */
  ghost predicate SelectionOk(g: Game, grid: Grid)
  {
    g.selected.Some? ==> g.selected.value in grid.tiles && grid.tiles[g.selected.value].tower.Some?
  }

  /**
   A click on a tile keeps the selection naming a tower: the tile's tower is
   selected only when it has one, and deselecting names nothing, whatever was
   selected before.
   */
  lemma ClickKeepsSelection(g: Game, grid: Grid, p: Point)
    requires p in grid.tiles
    ensures grid.tiles[p].tower.Some? ==> SelectionOk(SelectTower(g, p), grid)
    ensures SelectionOk(DeselectTower(g), grid)
  {
  }

  /** Deselecting undoes a selection: the game is as if the click had never selected anything. */
  lemma DeselectUndoesSelect(g: Game, p: Point)
    ensures DeselectTower(SelectTower(g, p)) == DeselectTower(g)
  {
  }

  /**
   `SellTower`: refund half the selected tower's price (integer division
   truncating toward zero), make its tile walkable, remove the tower and
   deselect it. With nothing selected nothing happens.
   */
  function SellTower(g: Game, grid: Grid): (r: (Game, Grid))
    requires SelectionOk(g, grid)
    ensures g.selected.None? ==> r == (g, grid)
    ensures g.selected.Some? ==>
      var p := g.selected.value;
      var (g', grid') := r;
      && g'.currency == g.currency + TruncDiv(grid.tiles[p].tower.value.price, 2)
      && g'.selected.None? && !g'.upgradePanel
      && grid'.size == grid.size && grid'.tiles.Keys == grid.tiles.Keys
      && grid'.tiles[p] == grid.tiles[p].(isEmpty := true, tower := None)
      && (forall q :: q in grid.tiles && q != p ==> grid'.tiles[q] == grid.tiles[q])
    ensures r.0 == g.(currency := r.0.currency, selected := r.0.selected, upgradePanel := r.0.upgradePanel)
    ensures WellFormed(grid) ==> WellFormed(r.1)
    ensures Sound(g) && (g.selected.Some? ==> grid.tiles[g.selected.value].tower.value.price >= 0) ==> Sound(r.0)
  {
    match g.selected
    case None => (g, grid)
    case Some(p) =>
      var t := grid.tiles[p].tower.value;
      var g1 := g.(currency := g.currency + TruncDiv(t.price, 2));
      var grid1 := grid.(tiles := grid.tiles[p := grid.tiles[p].(isEmpty := true, tower := None)]);
      (DeselectTower(g1), grid1)
  }

  /** A tower sold for its price gets back half, rounded toward zero: never more than it cost, and at most one short of half. */
  lemma SellRefundsHalf(price: int)
    requires price >= 0
    ensures 0 <= 2 * TruncDiv(price, 2) <= price <= 2 * TruncDiv(price, 2) + 1
  {
  }

  /**
   `UpgradeTower`: the selected tower climbs one rung when it has one left and
   the player can pay its price; otherwise nothing happens.
   */
  function UpgradeTower(g: Game, grid: Grid): (r: (Game, Grid))
    requires SelectionOk(g, grid)
    requires g.selected.Some? ==> Towers.Valid(grid.tiles[g.selected.value].tower.value)
    ensures var (g', grid') := r;
      && g' == g.(currency := g'.currency)
      && grid'.size == grid.size && grid'.tiles.Keys == grid.tiles.Keys
      && (forall q :: q in grid.tiles && Some(q) != g.selected ==> grid'.tiles[q] == grid.tiles[q])
    ensures g.selected.Some? ==>
      var p := g.selected.value;
      var t := grid.tiles[p].tower.value;
      var (g', grid') := r;
      if t.level <= |t.upgrades| && g.currency >= t.upgrades[t.level - 1].price then
        && g'.currency == g.currency - t.upgrades[t.level - 1].price
        && grid'.tiles[p] == grid.tiles[p].(tower := Some(Towers.Upgrade(t, g.currency).0))
        && grid'.tiles[p].tower.value.level == t.level + 1
      else r == (g, grid)
    ensures g.selected.None? ==> r == (g, grid)
    ensures WellFormed(grid) ==> WellFormed(r.1)
    ensures Sound(g) ==> Sound(r.0)
  {
    match g.selected
    case None => (g, grid)
    case Some(p) =>
      var t := grid.tiles[p].tower.value;
      if t.level <= |t.upgrades| && g.currency >= NextUpgrade(t).value.price then
        var (t', c') := Towers.Upgrade(t, g.currency);
        (g.(currency := c'), grid.(tiles := grid.tiles[p := grid.tiles[p].(tower := Some(t'))]))
      else (g, grid)
  }

  /** The names `SpawnWave` asks the pool for, by random index. */
  function MonsterName(index: int): string
    requires 0 <= index < 4
  {
    if index == 0 then "BlueMonster"
    else if index == 1 then "GreenMonster"
    else if index == 2 then "PurpleMonster"
    else "RedMonster"
  }

  /** The four random indices ask for four different monsters. */
  lemma MonsterNamesDistinct(i: int, j: int)
    requires 0 <= i < 4 && 0 <= j < 4
    ensures MonsterName(i) == MonsterName(j) <==> i == j
  {
  }

  /** The pool has a prefab called `name`. */
  ghost predicate HasPrefab(pool: Pool<Monster>, name: string)
  {
    exists j :: 0 <= j < |pool.prefabs| && pool.prefabs[j].name == name
  }

  /** The pool has a prefab for each of the four monsters. */
  ghost predicate HasMonsterPrefabs(pool: Pool<Monster>)
  {
    forall k :: 0 <= k < 4 ==> HasPrefab(pool, MonsterName(k))
  }

  /** The health the `k`-th monster of wave `wave` spawns with, when the wave starts with monster health `health`. */
  function SpawnHealth(health: int, wave: int, k: int): int
  {
    if wave % 3 == 0 then health + 5 * k else health
  }

  /** Monster `k` of this wave sits at `active[from + k]`, active, of the chosen kind, spawned with the right health on the route's first waypoint. */
  ghost predicate Spawned(pool: Pool<Monster>, active: seq<nat>, from: nat, choices: seq<int>, health: int, wave: int, first: Point)
    requires from <= |active|
  {
    forall i :: from <= i < |active| ==>
      && active[i] < |pool.objects|
      && i - from < |choices| && 0 <= choices[i - from] < 4
      && pool.objects[active[i]].active
      && pool.objects[active[i]].name == MonsterName(choices[i - from])
      && pool.objects[active[i]].value.health == SpawnHealth(health, wave, i - from) as real
      && pool.objects[active[i]].value.unit.gridPosition == first
  }

  /** Changing one pooled object that is not in the active list keeps what is known about the active ones. */
  lemma SpawnedFrame(pool: Pool<Monster>, pool': Pool<Monster>, active: seq<nat>, from: nat, choices: seq<int>,
                     health: int, wave: int, first: Point, idx: nat)
    requires from <= |active| && Spawned(pool, active, from, choices, health, wave, first)
    requires |pool'.objects| >= |pool.objects|
    requires forall j :: 0 <= j < |pool.objects| && j != idx ==> pool'.objects[j] == pool.objects[j]
    requires forall i :: 0 <= i < |active| ==> active[i] < |pool.objects| && active[i] != idx
    ensures Spawned(pool', active, from, choices, health, wave, first)
  {
    forall i | from <= i < |active| ensures pool'.objects[active[i]] == pool.objects[active[i]] {
    }
  }

  /** Appending the object just spawned as the next monster of the wave keeps what is known about the wave. */
  lemma SpawnedExtend(pool: Pool<Monster>, active: seq<nat>, from: nat, choices: seq<int>,
                      health: int, wave: int, first: Point, idx: nat)
    requires from <= |active| && Spawned(pool, active, from, choices, health, wave, first)
    requires idx < |pool.objects| && pool.objects[idx].active
    requires |active| - from < |choices| && 0 <= choices[|active| - from] < 4
    requires pool.objects[idx].name == MonsterName(choices[|active| - from])
    requires pool.objects[idx].value.health == SpawnHealth(health, wave, |active| - from) as real
    requires pool.objects[idx].value.unit.gridPosition == first
    ensures Spawned(pool, active + [idx], from, choices, health, wave, first)
  {
    var a' := active + [idx];
    var k := |active|;
    forall i | from <= i < |a'|
      ensures && a'[i] < |pool.objects|
              && i - from < |choices| && 0 <= choices[i - from] < 4
              && pool.objects[a'[i]].active
              && pool.objects[a'[i]].name == MonsterName(choices[i - from])
              && pool.objects[a'[i]].value.health == SpawnHealth(health, wave, i - from) as real
              && pool.objects[a'[i]].value.unit.gridPosition == first
    {
      if i < k {
        assert a'[i] == active[i];
      } else {
        assert i == k && a'[i] == idx;
      }
    }
  }

  /**
   `GetObject` for a monster: one instantiated from its prefab runs its field
   initialisers and `Awake` before it is handed out; a reused one comes back
   as it was released.
   */
  function GetMonster(pool: Pool<Monster>, name: string): (r: (Pool<Monster>, Option<nat>))
    ensures var (p1, got) := GetObject(pool, name);
      && r.1 == got
      && r.0.prefabs == pool.prefabs && |r.0.objects| == |p1.objects|
      && (forall j :: 0 <= j < |p1.objects| && Some(j) != got ==> r.0.objects[j] == p1.objects[j])
      && (got.Some? && got.value < |pool.objects| ==> r.0.objects[got.value] == p1.objects[got.value])
      && (got.Some? && got.value == |pool.objects| ==>
            r.0.objects[got.value] == p1.objects[got.value].(value := Monsters.Awake(p1.objects[got.value].value)))
    ensures r.1.Some? && r.1.value == |pool.objects| ==>
      var m := r.0.objects[r.1.value].value;
      m.invulnerability == 2 && m.debuffs == [] && m.newDebuffs == [] && m.debuffsToRemove == []
    ensures MonstersValid(pool) ==> MonstersValid(r.0)
  {
    var (p1, got) := GetObject(pool, name);
    if got.Some? && got.value == |pool.objects| then
      (SetMonster(p1, got.value, Monsters.Awake(p1.objects[got.value].value)), got)
    else (p1, got)
  }

  /** The object `GetObject` hands out is not one already in the active list. */
  lemma HandedOutIsFresh(active: seq<nat>, pool: Pool<Monster>, name: string)
    requires PoolOk(active, pool) && GetObject(pool, name).1.Some?
    ensures forall i :: 0 <= i < |active| ==> active[i] < |pool.objects| && active[i] != GetObject(pool, name).1.value
  {
  }

  /** The pool part of the invariant survives handing out object `idx`, with or without appending it to the active list. */
  lemma PoolOkExtend(active: seq<nat>, pool: Pool<Monster>, pool': Pool<Monster>, idx: nat)
    requires PoolOk(active, pool)
    requires pool'.prefabs == pool.prefabs && |pool'.objects| >= |pool.objects|
    requires forall j :: 0 <= j < |pool.objects| && j != idx ==> pool'.objects[j] == pool.objects[j]
    requires idx < |pool'.objects| && pool'.objects[idx].active && Monsters.Valid(pool'.objects[idx].value)
    requires forall i :: 0 <= i < |active| ==> active[i] != idx
    requires |pool'.objects| <= |pool.objects| + 1
    requires |pool'.objects| == |pool.objects| + 1 ==> idx == |pool.objects|
    ensures PoolOk(active, pool')
    ensures PoolOk(active + [idx], pool')
  {
    var a' := active + [idx];
    forall i | 0 <= i < |a'| ensures a'[i] < |pool'.objects| && pool'.objects[a'[i]].active {
      if i < |active| { assert a'[i] == active[i]; }
    }
    forall i, j | 0 <= i < j < |a'| ensures a'[i] != a'[j] {
      if j < |active| { assert a'[i] == active[i] && a'[j] == active[j]; }
      else { assert a'[i] == active[i]; }
    }
    forall j | 0 <= j < |pool'.objects| ensures Monsters.Valid(pool'.objects[j].value) {
      if j != idx {
        assert j < |pool.objects| || j == idx;
      }
    }
  }

  /** A wanted name with no prefab means the pool lacks one of the monster prefabs. */
  lemma MissingPrefab(pool: Pool<Monster>, k: int)
    requires 0 <= k < 4 && forall j :: 0 <= j < |pool.prefabs| ==> pool.prefabs[j].name != MonsterName(k)
    ensures !HasMonsterPrefabs(pool)
  {
    assert !HasPrefab(pool, MonsterName(k));
  }

  /**
   The state of `SpawnWave` after `i` monsters of the wave that started in `g0`
   (with `l0` the level right after `GeneratePath`): `i` monsters appended,
   health stepped `i` times, the spawned monsters as `Spawned` says.
   */
  ghost predicate WaveState(g0: Game, l0: Level, g: Game, l: Level, i: nat, choices: seq<int>, first: Point)
  {
    && Ready(l) && l.grid == l0.grid && l.fullPath == l0.fullPath
    && g == g0.(activeMonsters := g.activeMonsters, pool := g.pool, health := g.health)
    && |g.activeMonsters| == |g0.activeMonsters| + i
    && g.activeMonsters[..|g0.activeMonsters|] == g0.activeMonsters
    && g.health == SpawnHealth(g0.health, g0.wave, i)
    && g.pool.prefabs == g0.pool.prefabs
    && PoolOk(g.activeMonsters, g.pool)
    && Spawned(g.pool, g.activeMonsters, |g0.activeMonsters|, choices, g0.health, g0.wave, first)
    && (l0.fullPath.None? ==> i == 0)
  }

  /** Handing out a pooled object without spawning it (the route is missing) keeps the wave state. */
  lemma WaveStateAfterFailure(g0: Game, l0: Level, g: Game, l': Level, i: nat, choices: seq<int>, first: Point,
                              name: string)
    requires WaveState(g0, l0, g, l', i, choices, first)
    requires GetMonster(g.pool, name).1.Some?
    ensures WaveState(g0, l0, g.(pool := GetMonster(g.pool, name).0), l', i, choices, first)
  {
    var (p1, got) := GetMonster(g.pool, name);
    HandedOutIsFresh(g.activeMonsters, g.pool, name);
    SpawnedFrame(g.pool, p1, g.activeMonsters, |g0.activeMonsters|, choices, g0.health, g0.wave, first, got.value);
    PoolOkExtend(g.activeMonsters, g.pool, p1, got.value);
  }

  /** Spawning the handed-out object and appending it moves the wave state one monster on. */
  lemma WaveStateAfterSpawn(g0: Game, l0: Level, g: Game, l': Level, i: nat, choices: seq<int>, first: Point,
                            path: seq<Node>)
    requires WaveState(g0, l0, g, l', i, choices, first)
    requires i < |choices| && 0 <= choices[i] < 4
    requires GetMonster(g.pool, MonsterName(choices[i])).1.Some?
    requires l0.fullPath.Some? && |path| > 0 && path[0].gridPosition == first
    ensures var (p1, got) := GetMonster(g.pool, MonsterName(choices[i]));
      var idx := got.value;
      var m := Spawn(p1.objects[idx].value, g.health, Some(path));
      var p2 := p1.(objects := p1.objects[idx := p1.objects[idx].(value := m)]);
      WaveState(g0, l0, g.(pool := p2, activeMonsters := g.activeMonsters + [idx],
                           health := if g0.wave % 3 == 0 then g.health + 5 else g.health), l', i + 1, choices, first)
  {
    var (p1, got) := GetMonster(g.pool, MonsterName(choices[i]));
    var idx := got.value;
    var m := Spawn(p1.objects[idx].value, g.health, Some(path));
    var p2 := p1.(objects := p1.objects[idx := p1.objects[idx].(value := m)]);
    SpawnKeepsPool(g.pool, g.activeMonsters, |g0.activeMonsters|, choices, g0.health, g0.wave, first, i, path, p1, idx, p2);
    var a' := g.activeMonsters + [idx];
    assert a'[..|g0.activeMonsters|] == g.activeMonsters[..|g0.activeMonsters|];
    var g' := g.(pool := p2, activeMonsters := a', health := if g0.wave % 3 == 0 then g.health + 5 else g.health);
    assert g'.health == SpawnHealth(g0.health, g0.wave, i + 1);
  }

  /** The pool side of one spawn: the object handed out joins the active list as the next monster of the wave. */
  lemma SpawnKeepsPool(pool: Pool<Monster>, active: seq<nat>, from: nat, choices: seq<int>, health: int, wave: int,
                       first: Point, i: nat, path: seq<Node>, p1: Pool<Monster>, idx: nat, p2: Pool<Monster>)
    requires |active| == from + i && i < |choices| && 0 <= choices[i] < 4
    requires PoolOk(active, pool) && Spawned(pool, active, from, choices, health, wave, first)
    requires GetMonster(pool, MonsterName(choices[i])) == (p1, Some(idx))
    requires |path| > 0 && path[0].gridPosition == first && idx < |p1.objects|
    requires p2 == p1.(objects := p1.objects[idx := p1.objects[idx].(value :=
      Spawn(p1.objects[idx].value, SpawnHealth(health, wave, i), Some(path)))])
    ensures p2.prefabs == pool.prefabs
    ensures PoolOk(active + [idx], p2)
    ensures Spawned(p2, active + [idx], from, choices, health, wave, first)
  {
    HandedOutIsFresh(active, pool, MonsterName(choices[i]));
    SpawnedFrame(pool, p2, active, from, choices, health, wave, first, idx);
    SpawnedExtend(p2, active, from, choices, health, wave, first, idx);
    PoolOkExtend(active, pool, p2, idx);
  }

  /** One iteration of the spawn loop. `stopped` reports the source's exception (null from the pool, or no route). */
  method SpawnNext(g0: Game, l0: Level, g: Game, l: Level, i: nat, choices: seq<int>, first: Point)
    returns (g': Game, l': Level, stopped: bool)
    requires WaveState(g0, l0, g, l, i, choices, first)
    requires i < |choices| && 0 <= choices[i] < 4
    requires l0.fullPath.Some? ==> IsPath(l0.grid, BlueSpawn, RedSpawn, Positions(l0.fullPath.value))
    requires l0.fullPath.Some? <==> Reachable(l0.grid, BlueSpawn, RedSpawn)
    requires l0.fullPath.Some? ==> first == l0.fullPath.value[0].gridPosition
    ensures !stopped ==> WaveState(g0, l0, g', l', i + 1, choices, first)
    ensures stopped ==> WaveState(g0, l0, g', l', i, choices, first)
    ensures stopped ==> l0.fullPath.None? || !HasMonsterPrefabs(g0.pool)
  {
    var (p1, got) := GetMonster(g.pool, MonsterName(choices[i]));
    var path;
    path, l' := Path(l);
    assert WaveState(g0, l0, g, l', i, choices, first);
    if got.None? {
      MissingPrefab(g0.pool, choices[i]);
      return g, l', true;
    }
    var idx := got.value;
    if path.None? {
      WaveStateAfterFailure(g0, l0, g, l', i, choices, first, MonsterName(choices[i]));
      return g.(pool := p1), l', true;
    }
    WaveStateAfterSpawn(g0, l0, g, l', i, choices, first, path.value);
    var m := Spawn(p1.objects[idx].value, g.health, path);
    var p2 := p1.(objects := p1.objects[idx := p1.objects[idx].(value := m)]);
    g' := g.(pool := p2, activeMonsters := g.activeMonsters + [idx],
             health := if g0.wave % 3 == 0 then g.health + 5 else g.health);
    stopped := false;
  }

  /**
   `SpawnWave`: generate the monster path, then for each of the wave's `wave`
   monsters ask the pool for the randomly chosen kind (`choices` stands for
   `Random.Range(0, 4)`), spawn it with the current monster health on the path,
   add 5 health every third wave, and add it to the active list. A null from the
   pool or a missing route throws in the source and ends the wave early.
   */
  method SpawnWave(g: Game, l: Level, choices: seq<int>) returns (g': Game, l': Level)
    requires Sound(g) && Ready(l)
    requires |choices| >= g.wave && forall i :: 0 <= i < |choices| ==> 0 <= choices[i] < 4
    ensures Sound(g') && Ready(l') && l'.grid == l.grid
    ensures l'.fullPath.Some? <==> Reachable(l.grid, BlueSpawn, RedSpawn)
    ensures l'.fullPath.Some? ==> IsPath(l.grid, BlueSpawn, RedSpawn, Positions(l'.fullPath.value))
    ensures g' == g.(activeMonsters := g'.activeMonsters, pool := g'.pool, health := g'.health)
    ensures |g.activeMonsters| <= |g'.activeMonsters| <= |g.activeMonsters| + g.wave
    ensures g'.activeMonsters[..|g.activeMonsters|] == g.activeMonsters
    ensures g'.health == SpawnHealth(g.health, g.wave, |g'.activeMonsters| - |g.activeMonsters|)
    ensures !Reachable(l.grid, BlueSpawn, RedSpawn) ==> g'.activeMonsters == g.activeMonsters
    ensures Reachable(l.grid, BlueSpawn, RedSpawn) && HasMonsterPrefabs(g.pool) ==>
      |g'.activeMonsters| == |g.activeMonsters| + g.wave
    ensures l'.fullPath.Some? ==>
      Spawned(g'.pool, g'.activeMonsters, |g.activeMonsters|, choices, g.health, g.wave, l'.fullPath.value[0].gridPosition)
  {
    var l0 := GeneratePath(l);
    var first := if l0.fullPath.Some? then l0.fullPath.value[0].gridPosition else Point(0, 0);
    g', l' := g, l0;
    assert g.activeMonsters[..|g.activeMonsters|] == g.activeMonsters;
    var i := 0;
    var stopped := false;
    while i < g.wave && !stopped
      invariant 0 <= i <= g.wave
      invariant WaveState(g, l0, g', l', i, choices, first)
      invariant stopped ==> l0.fullPath.None? || !HasMonsterPrefabs(g.pool)
      decreases g.wave - i, !stopped
    {
      var st;
      g', l', st := SpawnNext(g, l0, g', l', i, choices, first);
      if st {
        stopped := true;
      } else {
        i := i + 1;
      }
    }
    WaveStateAtEnd(g, l, l0, g', l', i, choices, first, stopped);
  }

  /** What the spawn loop leaves when it ends, stated as `SpawnWave` promises it. */
  lemma WaveStateAtEnd(g: Game, l: Level, l0: Level, g': Game, l': Level, i: nat, choices: seq<int>, first: Point,
                       stopped: bool)
    requires Sound(g) && Ready(l) && l0.grid == l.grid
    requires l0.fullPath.Some? <==> Reachable(l.grid, BlueSpawn, RedSpawn)
    requires l0.fullPath.Some? ==> IsPath(l.grid, BlueSpawn, RedSpawn, Positions(l0.fullPath.value))
    requires l0.fullPath.Some? ==> first == l0.fullPath.value[0].gridPosition
    requires i <= g.wave && WaveState(g, l0, g', l', i, choices, first)
    requires stopped ==> l0.fullPath.None? || !HasMonsterPrefabs(g.pool)
    requires !(i < g.wave && !stopped)
    ensures Sound(g') && Ready(l') && l'.grid == l.grid
    ensures l'.fullPath.Some? <==> Reachable(l.grid, BlueSpawn, RedSpawn)
    ensures l'.fullPath.Some? ==> IsPath(l.grid, BlueSpawn, RedSpawn, Positions(l'.fullPath.value))
    ensures g' == g.(activeMonsters := g'.activeMonsters, pool := g'.pool, health := g'.health)
    ensures |g.activeMonsters| <= |g'.activeMonsters| <= |g.activeMonsters| + g.wave
    ensures g'.activeMonsters[..|g.activeMonsters|] == g.activeMonsters
    ensures g'.health == SpawnHealth(g.health, g.wave, |g'.activeMonsters| - |g.activeMonsters|)
    ensures !Reachable(l.grid, BlueSpawn, RedSpawn) ==> g'.activeMonsters == g.activeMonsters
    ensures Reachable(l.grid, BlueSpawn, RedSpawn) && HasMonsterPrefabs(g.pool) ==>
      |g'.activeMonsters| == |g.activeMonsters| + g.wave
    ensures l'.fullPath.Some? ==>
      Spawned(g'.pool, g'.activeMonsters, |g.activeMonsters|, choices, g.health, g.wave, l'.fullPath.value[0].gridPosition)
  {
    if l0.fullPath.None? {
      assert g'.activeMonsters == g.activeMonsters[..|g.activeMonsters|];
    }
  }

  /**
   `StartWave`: count the wave up, hide the wave button and spawn the wave.
   The spawning is a coroutine in the source; here it runs to completion.
   */
  method StartWave(g: Game, l: Level, choices: seq<int>) returns (g': Game, l': Level)
    requires Sound(g) && Ready(l)
    requires |choices| > g.wave && forall i :: 0 <= i < |choices| ==> 0 <= choices[i] < 4
    ensures Sound(g') && Ready(l') && l'.grid == l.grid
    ensures g'.wave == g.wave + 1 && !g'.waveBtn
    ensures |g.activeMonsters| <= |g'.activeMonsters| <= |g.activeMonsters| + g.wave + 1
    ensures g' == g.(wave := g'.wave, waveBtn := false, activeMonsters := g'.activeMonsters, pool := g'.pool, health := g'.health)
    ensures l'.fullPath.Some? <==> Reachable(l.grid, BlueSpawn, RedSpawn)
    ensures g'.activeMonsters[..|g.activeMonsters|] == g.activeMonsters
    ensures !Reachable(l.grid, BlueSpawn, RedSpawn) ==> g'.activeMonsters == g.activeMonsters
    ensures Reachable(l.grid, BlueSpawn, RedSpawn) && HasMonsterPrefabs(g.pool) ==>
      |g'.activeMonsters| == |g.activeMonsters| + g.wave + 1
  {
    var g1 := g.(wave := g.wave + 1, waveBtn := false);
    g', l' := SpawnWave(g1, l, choices);
  }

  /**
   `RemoveMonster`: take the monster out of the active list; when none is left
   and the game goes on, the wave button shows again.
   */
  function RemoveMonster(g: Game, idx: nat): (r: Game)
    ensures multiset(r.activeMonsters) == multiset(g.activeMonsters) - multiset{idx}
    ensures r.waveBtn <==> g.waveBtn || (|r.activeMonsters| == 0 && !g.gameOver)
    ensures r == g.(activeMonsters := r.activeMonsters, waveBtn := r.waveBtn)
  {
    var a := RemoveFirst(g.activeMonsters, idx);
    g.(activeMonsters := a, waveBtn := if |a| <= 0 && !g.gameOver then true else g.waveBtn)
  }

  /** Removing a monster keeps the invariant, and the removed one is gone from the list for good. */
  lemma RemoveMonsterSound(g: Game, idx: nat)
    requires PoolOk(g.activeMonsters, g.pool)
    ensures var r := RemoveMonster(g, idx);
      PoolOk(r.activeMonsters, r.pool) && idx !in r.activeMonsters && (Sound(g) ==> Sound(r))
  {
    RemoveFirstDistinct(g.activeMonsters, idx);
    var s, r := g.activeMonsters, RemoveFirst(g.activeMonsters, idx);
    forall i | 0 <= i < |r| ensures r[i] < |g.pool.objects| && g.pool.objects[r[i]].active {
      assert r[i] in r;
      var k :| 0 <= k < |s| && s[k] == r[i];
    }
  }

  /** Replace the monster held by pooled object `idx`, leaving its name and active flag alone. */
  function SetMonster(pool: Pool<Monster>, idx: nat, m: Monster): (r: Pool<Monster>)
    requires idx < |pool.objects|
    ensures r.prefabs == pool.prefabs && |r.objects| == |pool.objects|
    ensures r.objects[idx] == pool.objects[idx].(value := m)
    ensures forall j :: 0 <= j < |pool.objects| && j != idx ==> r.objects[j] == pool.objects[j]
  {
    pool.(objects := pool.objects[idx := pool.objects[idx].(value := m)])
  }

  /**
   `Monster.Release` as the game sees it: the monster drops its debuffs, goes
   back to (0, 0) at full speed, leaves the active list (`RemoveMonster`) and
   returns to the pool (`ReleaseObject`).
   */
  function ReleaseMonster(g: Game, idx: nat): (r: Game)
    requires idx < |g.pool.objects|
    ensures multiset(r.activeMonsters) == multiset(g.activeMonsters) - multiset{idx}
    ensures r.waveBtn <==> g.waveBtn || (|r.activeMonsters| == 0 && !g.gameOver)
    ensures r == g.(activeMonsters := r.activeMonsters, pool := r.pool, waveBtn := r.waveBtn)
    ensures r.pool.prefabs == g.pool.prefabs && |r.pool.objects| == |g.pool.objects|
    ensures !r.pool.objects[idx].active && r.pool.objects[idx].name == g.pool.objects[idx].name
    ensures r.pool.objects[idx].value == Monsters.Release(g.pool.objects[idx].value)
    ensures forall j :: 0 <= j < |g.pool.objects| && j != idx ==> r.pool.objects[j] == g.pool.objects[j]
  {
    var g1 := g.(pool := SetMonster(g.pool, idx, Monsters.Release(g.pool.objects[idx].value)));
    var g2 := RemoveMonster(g1, idx);
    g2.(pool := ReleaseObject(g2.pool, idx))
  }

  /** Releasing keeps the invariant and the released monster is no longer active. */
  lemma ReleaseMonsterSound(g: Game, idx: nat)
    requires idx < |g.pool.objects| && PoolOk(g.activeMonsters, g.pool)
    ensures var r := ReleaseMonster(g, idx);
      PoolOk(r.activeMonsters, r.pool) && idx !in r.activeMonsters && (Sound(g) ==> Sound(r))
  {
    var g1 := g.(pool := SetMonster(g.pool, idx, Monsters.Release(g.pool.objects[idx].value)));
    SetMonsterKeepsPoolOk(g.activeMonsters, g.pool, idx, Monsters.Release(g.pool.objects[idx].value));
    RemoveMonsterSound(g1, idx);
    var g2 := RemoveMonster(g1, idx);
    ReleaseObjectKeepsPoolOk(g2.activeMonsters, g2.pool, idx);
  }

  /** Swapping in a valid monster leaves the pool part of the invariant intact. */
  lemma SetMonsterKeepsPoolOk(active: seq<nat>, pool: Pool<Monster>, idx: nat, m: Monster)
    requires PoolOk(active, pool) && idx < |pool.objects| && Monsters.Valid(m)
    ensures PoolOk(active, SetMonster(pool, idx, m))
  {
    var p := SetMonster(pool, idx, m);
    forall i | 0 <= i < |active| ensures p.objects[active[i]].active {
      assert p.objects[active[i]].active == pool.objects[active[i]].active;
    }
    forall j | 0 <= j < |p.objects| ensures Monsters.Valid(p.objects[j].value) {
      if j != idx { assert p.objects[j] == pool.objects[j]; }
    }
  }

  /** Returning an object that is not in the active list leaves the pool part of the invariant intact. */
  lemma ReleaseObjectKeepsPoolOk(active: seq<nat>, pool: Pool<Monster>, idx: nat)
    requires PoolOk(active, pool) && idx < |pool.objects| && idx !in active
    ensures PoolOk(active, ReleaseObject(pool, idx))
  {
    var p := ReleaseObject(pool, idx);
    forall i | 0 <= i < |active| ensures p.objects[active[i]].active {
      assert active[i] in active;
      assert p.objects[active[i]] == pool.objects[active[i]];
    }
    forall j | 0 <= j < |p.objects| ensures Monsters.Valid(p.objects[j].value) {
      assert p.objects[j].value == pool.objects[j].value;
    }
  }

  /**
   A hit from a projectile, splash or burn: the monster takes the damage
   (`TakeDamage`) and a kill pays 2 currency through the `Currency` setter.
   */
  function HitMonster(g: Game, idx: nat, damage: real, source: Element): (r: Game)
    requires idx < |g.pool.objects| && Monsters.Valid(g.pool.objects[idx].value)
    ensures r.pool.prefabs == g.pool.prefabs && |r.pool.objects| == |g.pool.objects|
    ensures var m := g.pool.objects[idx].value;
      var m' := r.pool.objects[idx].value;
      && r.currency == g.currency + (if m.unit.isActive && !Alive(m') then 2 else 0)
      && Monsters.Valid(m') && m'.element == m.element
      && (!m.unit.isActive ==> r == g)
    ensures r == g.(currency := r.currency, pool := r.pool)
    ensures r.pool.objects[idx].name == g.pool.objects[idx].name && r.pool.objects[idx].active == g.pool.objects[idx].active
    ensures forall j :: 0 <= j < |g.pool.objects| && j != idx ==> r.pool.objects[j] == g.pool.objects[j]
    ensures Sound(g) ==> Sound(r)
  {
    var (m, reward) := TakeDamage(g.pool.objects[idx].value, damage, source);
    g.(currency := g.currency + reward, pool := SetMonster(g.pool, idx, m))
  }

  /** However often a monster is hit, its death is paid for once: two hits pay at most 2. */
  lemma KillPaidOnce(g: Game, idx: nat, d1: real, s1: Element, d2: real, s2: Element)
    requires idx < |g.pool.objects| && Monsters.Valid(g.pool.objects[idx].value)
    ensures var g1 := HitMonster(g, idx, d1, s1);
      HitMonster(g1, idx, d2, s2).currency <= g.currency + 2
  {
    var m := g.pool.objects[idx].value;
    var (m1, reward1) := TakeDamage(m, d1, s1);
    var g1 := HitMonster(g, idx, d1, s1);
    assert g1.pool.objects[idx].value == m1 && g1.currency == g.currency + reward1;
    var (m2, reward2) := TakeDamage(m1, d2, s2);
    assert HitMonster(g1, idx, d2, s2).currency == g1.currency + reward2;
    if reward1 == 2 {
      RewardPaidOnce(m, d1, s1, d2, s2);
    }
  }

  /**
   The end of a `Scale` coroutine: the monster is marked active. After the
   scale-in that `Spawn` starts this lets the monster walk and be hit; when the
   coroutine ends is an input.
   */
  function ScaledIn(g: Game, idx: nat): (r: Game)
    requires idx < |g.pool.objects|
    ensures r == g.(pool := r.pool) && r.pool.prefabs == g.pool.prefabs && |r.pool.objects| == |g.pool.objects|
    ensures var m, m' := g.pool.objects[idx].value, r.pool.objects[idx].value;
      && m'.unit.isActive
      && m'.unit.(isActive := false) == m.unit.(isActive := false)
      && m' == m.(unit := m'.unit)
    ensures r.pool.objects[idx].name == g.pool.objects[idx].name && r.pool.objects[idx].active == g.pool.objects[idx].active
    ensures forall j :: 0 <= j < |g.pool.objects| && j != idx ==> r.pool.objects[j] == g.pool.objects[j]
    ensures Sound(g) ==> Sound(r)
  {
    var m := g.pool.objects[idx].value;
    g.(pool := SetMonster(g.pool, idx, m.(unit := m.unit.(isActive := true))))
  }

  /**
   A spawned monster cannot be hurt until its scale-in ends; afterwards a hit
   of another element for at least its health kills it and pays 2.
   */
  lemma ScaledInCanBeKilled(g: Game, idx: nat, damage: real, source: Element)
    requires idx < |g.pool.objects| && Monsters.Valid(g.pool.objects[idx].value)
    requires source != g.pool.objects[idx].value.element && damage >= g.pool.objects[idx].value.health
    ensures !g.pool.objects[idx].value.unit.isActive ==> HitMonster(g, idx, damage, source) == g
    ensures HitMonster(ScaledIn(g, idx), idx, damage, source).currency == g.currency + 2
  {
  }

  /**
   A monster reaching the red portal: one life is lost through the `Lives`
   setter, and once the shrinking coroutine ends the monster is marked active
   and released.
   */
  function EnterRedPortal(g: Game, idx: nat): (r: Game)
    requires idx < |g.pool.objects|
    ensures r.lives == if g.lives <= 1 then 0 else g.lives - 1
    ensures r.gameOver <==> g.gameOver || g.lives <= 1
    ensures r.currency == g.currency && r.wave == g.wave && r.health == g.health
    ensures multiset(r.activeMonsters) == multiset(g.activeMonsters) - multiset{idx}
    ensures r.pool.prefabs == g.pool.prefabs && |r.pool.objects| == |g.pool.objects| && !r.pool.objects[idx].active
    ensures forall j :: 0 <= j < |g.pool.objects| && j != idx ==> r.pool.objects[j] == g.pool.objects[j]
  {
    ReleaseMonster(ScaledIn(SetLives(g, g.lives - 1), idx), idx)
  }

  lemma EnterRedPortalSound(g: Game, idx: nat)
    requires idx < |g.pool.objects| && Sound(g)
    ensures Sound(EnterRedPortal(g, idx)) && idx !in EnterRedPortal(g, idx).activeMonsters
  {
    var g2 := ScaledIn(SetLives(g, g.lives - 1), idx);
    ReleaseMonsterSound(g2, idx);
  }

  /** Monsters `idxs` reach the red portal one after another. */
  function Leaks(g: Game, idxs: seq<nat>): (r: Game)
    requires forall i :: 0 <= i < |idxs| ==> idxs[i] < |g.pool.objects|
    ensures |r.pool.objects| == |g.pool.objects|
    ensures g.gameOver ==> r.gameOver
    decreases |idxs|
  {
    if |idxs| == 0 then g
    else Leaks(EnterRedPortal(g, idxs[0]), idxs[1..])
  }

  /** One leak, into `g1`: the game stays sound, loses a life unless none is left, and the remaining indices stay in range. */
  lemma LeakStep(g: Game, idxs: seq<nat>, g1: Game)
    requires Sound(g) && |idxs| > 0
    requires forall i :: 0 <= i < |idxs| ==> idxs[i] < |g.pool.objects|
    requires g1 == EnterRedPortal(g, idxs[0])
    ensures Sound(g1) && g1.lives <= (if g.lives <= 1 then 0 else g.lives - 1)
    ensures forall i :: 0 <= i < |idxs[1..]| ==> idxs[1..][i] < |g1.pool.objects|
    ensures Leaks(g, idxs) == Leaks(g1, idxs[1..])
  {
    EnterRedPortalSound(g, idxs[0]);
    var rest := idxs[1..];
    forall i | 0 <= i < |rest| ensures rest[i] < |g1.pool.objects| {
      assert rest[i] == idxs[i + 1];
    }
  }

  /** As many leaks as there are lives end the game, and the game stays sound throughout. */
  lemma {:induction false} LivesRunOut(g: Game, idxs: seq<nat>)
    requires Sound(g) && |idxs| >= g.lives
    requires forall i :: 0 <= i < |idxs| ==> idxs[i] < |g.pool.objects|
    ensures Sound(Leaks(g, idxs)) && Leaks(g, idxs).gameOver
    decreases |idxs|
  {
    if |idxs| == 0 {
      assert g.lives == 0;
    } else {
      var g1 := EnterRedPortal(g, idxs[0]);
      LeakStep(g, idxs, g1);
      LivesRunOut(g1, idxs[1..]);
    }
  }
}

=== FILE: Grids.dfy ===
/**
 The level's tile grid as the rest of the game reads it: LevelManager's map
 size and `Tiles` dictionary, and the per-tile state of TileScript that
 matters to path finding and tower placement.
 */
module Grids {
  import opened Options
  import opened Points
  import opened Towers

  /** A TileScript: its position, the digit it was built from, `IsEmpty` (walkable) and its tower. */
  datatype Tile = Tile(gridPosition: Point, tileType: int, isEmpty: bool, tower: Option<Tower>)

  /** `mapSize` plus the `Tiles` dictionary. */
  datatype Grid = Grid(size: Point, tiles: map<Point, Tile>)

  /** TileScript `Start`: every tile begins empty. */
  function Start(t: Tile): (r: Tile)
    ensures r.isEmpty
    ensures r.gridPosition == t.gridPosition && r.tileType == t.tileType && r.tower == t.tower
  {
    t.(isEmpty := true)
  }

  /**
   TileScript `Setup`: give the tile its grid position and add it to the
   dictionary. `Dictionary.Add` throws on a key already present (None).
   */
  function Setup(tiles: map<Point, Tile>, t: Tile, pos: Point): (r: Option<map<Point, Tile>>)
    ensures r.Some? <==> pos !in tiles
    ensures r.Some? ==> r.value.Keys == tiles.Keys + {pos}
    ensures r.Some? ==> r.value[pos].gridPosition == pos && r.value[pos].tileType == t.tileType
    ensures r.Some? ==> r.value[pos].isEmpty == t.isEmpty && r.value[pos].tower == t.tower
    ensures r.Some? ==> forall q :: q in tiles ==> r.value[q] == tiles[q]
  {
    if pos in tiles then None else Some(tiles[pos := t.(gridPosition := pos)])
  }

  /** `InBounds`: inside [0, width) x [0, height). */
  predicate InBounds(size: Point, p: Point)
  {
    p.x >= 0 && p.y >= 0 && p.x < size.x && p.y < size.y
  }

  /** The shape `CreateLevel` leaves behind: one tile per in-bounds cell, registered under its own position. */
  ghost predicate WellFormed(g: Grid)
  {
    && g.size.x >= 0 && g.size.y >= 0
    && (forall p :: p in g.tiles <==> InBounds(g.size, p))
    && (forall p :: p in g.tiles ==> g.tiles[p].gridPosition == p)
  }

  predicate Walkable(g: Grid, p: Point)
    requires p in g.tiles
  {
    g.tiles[p].isEmpty
  }

  /** Assigning `IsEmpty` of one tile. */
  function SetEmpty(g: Grid, p: Point, empty: bool): (r: Grid)
    requires p in g.tiles
    ensures r.size == g.size && r.tiles.Keys == g.tiles.Keys
    ensures r.tiles[p].isEmpty == empty && r.tiles[p].tower == g.tiles[p].tower
    ensures forall q :: q in g.tiles && q != p ==> r.tiles[q] == g.tiles[q]
    ensures WellFormed(g) ==> WellFormed(r)
  {
    g.(tiles := g.tiles[p := g.tiles[p].(isEmpty := empty)])
  }

  /** Writing back the value a tile already had leaves the grid as it was. */
  lemma SetEmptyRestores(g: Grid, p: Point, empty: bool)
    requires p in g.tiles
    ensures SetEmpty(SetEmpty(g, p, empty), p, g.tiles[p].isEmpty) == g
  {
    assert SetEmpty(SetEmpty(g, p, empty), p, g.tiles[p].isEmpty).tiles == g.tiles;
  }
}

=== FILE: Levels.dfy ===
/**
 LevelManager: reading the level text, building the tile grid, the two portal
 positions, the placement check and the cached monster path.
 */
module Levels {
  import opened Options
  import opened Points
  import opened Grids
  import opened Nodes
  import opened Moves
  import opened AStar
  import opened Lists

  /** Where `SpawnPortals` puts the blue portal (monsters enter) and the red portal (monsters leave). */
  const BlueSpawn := Point(0, 0)
  const RedSpawn := Point(11, 6)

  // ---------------------------------------------------------------------------
  // Level text

  /** `string.Replace(pattern, "")`: drop every occurrence of `pat`, scanning left to right without overlaps. */
  function RemoveAll(s: string, pat: string): (r: string)
    requires |pat| > 0
    ensures |r| <= |s|
    ensures |pat| == 1 ==> pat[0] !in r
    decreases |s|
  {
    if |s| < |pat| then s
    else if s[..|pat|] == pat then RemoveAll(s[|pat|..], pat)
    else [s[0]] + RemoveAll(s[1..], pat)
  }

  /** `lines` written one after the other with `sep` after each but the last. */
  function JoinWith(lines: seq<string>, sep: string): string
  {
    if |lines| == 0 then []
    else if |lines| == 1 then lines[0]
    else lines[0] + sep + JoinWith(lines[1..], sep)
  }

  function Concat(lines: seq<string>): string
  {
    if |lines| == 0 then [] else lines[0] + Concat(lines[1..])
  }

  /** Text without the first character of `pat` is left alone. */
  lemma {:induction false} RemoveAllKeeps(s: string, pat: string)
    requires |pat| > 0 && pat[0] !in s
    ensures RemoveAll(s, pat) == s
    decreases |s|
  {
    if |s| >= |pat| {
      assert s[..|pat|][0] == s[0];
      assert s[1..] + [] == s[1..];
      RemoveAllKeeps(s[1..], pat);
      assert [s[0]] + s[1..] == s;
    }
  }

  lemma RemoveAllAtPattern(pat: string, b: string)
    requires |pat| > 0
    ensures RemoveAll(pat + b, pat) == RemoveAll(b, pat)
  {
    var s := pat + b;
    assert s[..|pat|] == pat && s[|pat|..] == b;
  }

  lemma RemoveAllPassOver(s: string, pat: string)
    requires |pat| > 0 && |s| >= |pat| && s[0] != pat[0]
    ensures RemoveAll(s, pat) == [s[0]] + RemoveAll(s[1..], pat)
  {
    assert s[..|pat|][0] == s[0];
  }

  lemma {:induction false} RemoveAllPrefix(a: string, pat: string, b: string)
    requires |pat| > 0 && pat[0] !in a
    ensures RemoveAll(a + pat + b, pat) == a + RemoveAll(b, pat)
    decreases |a|
  {
    if |a| == 0 {
      assert a + pat + b == pat + b;
      RemoveAllAtPattern(pat, b);
    } else {
      RemoveAllPrefix(a[1..], pat, b);
      RemoveAllPrefixStep(a, pat, b, RemoveAll(b, pat));
    }
  }

  /** The step of `RemoveAllPrefix`: a first character that cannot start `pat` is kept. */
  lemma RemoveAllPrefixStep(a: string, pat: string, b: string, rest: string)
    requires |pat| > 0 && |a| > 0 && a[0] != pat[0]
    requires RemoveAll(a[1..] + pat + b, pat) == a[1..] + rest
    ensures RemoveAll(a + pat + b, pat) == a + rest
  {
    var s, s1 := a + pat + b, a[1..] + pat + b;
    assert s == [a[0]] + s1;
    assert s[0] == a[0] && s[1..] == s1;
    RemoveAllPassOver(s, pat);
    assert a == [a[0]] + a[1..];
  }

  /** Removing the line breaks of a text whose lines contain no line-break character leaves the lines run together. */
  lemma {:induction false} RemoveLineBreaks(lines: seq<string>, newline: string)
    requires |newline| > 0
    requires forall i :: 0 <= i < |lines| ==> newline[0] !in lines[i]
    ensures RemoveAll(JoinWith(lines, newline), newline) == Concat(lines)
    decreases |lines|
  {
    if |lines| == 1 {
      RemoveAllKeeps(lines[0], newline);
      assert Concat(lines) == lines[0] + Concat([]);
    } else if |lines| > 1 {
      RemoveAllPrefix(lines[0], newline, JoinWith(lines[1..], newline));
      RemoveLineBreaks(lines[1..], newline);
      assert lines[0] + newline + JoinWith(lines[1..], newline) == lines[0] + (newline + JoinWith(lines[1..], newline));
    }
  }

  /** `string.Split(c)`: the pieces between separators, empty pieces included. */
  function Split(s: string, c: char): (parts: seq<string>)
    ensures |parts| >= 1
    ensures forall i :: 0 <= i < |parts| ==> c !in parts[i]
    decreases |s|
  {
    if c !in s then [s]
    else
      var i := FirstIndex(s, c);
      [s[..i]] + Split(s[i + 1..], c)
  }

  lemma {:induction false} FirstIndexAfter(a: string, c: char, b: string)
    requires c !in a
    ensures c in a + [c] + b && FirstIndex(a + [c] + b, c) == |a|
    decreases |a|
  {
    var s := a + [c] + b;
    assert s[|a|] == c;
    if |a| > 0 {
      assert s[0] == a[0];
      assert s[1..] == a[1..] + [c] + b;
      FirstIndexAfter(a[1..], c, b);
    }
  }

  /** Splitting and joining back with the separator gives the text again. */
  lemma {:induction false} JoinSplit(s: string, c: char)
    ensures JoinWith(Split(s, c), [c]) == s
    decreases |s|
  {
    if c in s {
      var i := FirstIndex(s, c);
      var rest := s[i + 1..];
      JoinSplit(rest, c);
      var parts, tail := Split(s, c), Split(rest, c);
      assert parts == [s[..i]] + tail;
      assert |parts| >= 2 && parts[0] == s[..i] && parts[1..] == tail;
      assert JoinWith(parts, [c]) == s[..i] + [c] + JoinWith(tail, [c]);
      assert s == s[..i] + [c] + rest;
    }
  }

  /** Joining separator-free pieces and splitting again gives the pieces back. */
  lemma {:induction false} SplitJoin(parts: seq<string>, c: char)
    requires |parts| >= 1
    requires forall i :: 0 <= i < |parts| ==> c !in parts[i]
    ensures Split(JoinWith(parts, [c]), c) == parts
    decreases |parts|
  {
    if |parts| > 1 {
      var s := JoinWith(parts, [c]);
      var rest := JoinWith(parts[1..], [c]);
      assert s == parts[0] + [c] + rest;
      assert s[|parts[0]|] == c;
      assert c in s;
      FirstIndexAfter(parts[0], c, rest);
      var i := FirstIndex(s, c);
      assert s[..i] == parts[0];
      assert s[i + 1..] == rest;
      SplitJoin(parts[1..], c);
    } else {
      assert JoinWith(parts, [c]) == parts[0];
    }
  }

  /** `ReadlLevelText`: drop the line breaks of the level file, then split it at '-'. */
  function ReadLevelText(text: string, newline: string): (rows: seq<string>)
    requires |newline| > 0
    ensures |rows| >= 1
    ensures forall i :: 0 <= i < |rows| ==> '-' !in rows[i]
    ensures JoinWith(rows, "-") == RemoveAll(text, newline)
  {
    JoinSplit(RemoveAll(text, newline), '-');
    Split(RemoveAll(text, newline), '-')
  }

  // ---------------------------------------------------------------------------
  // Building the grid

  predicate IsDigit(c: char)
  {
    '0' <= c <= '9'
  }

  function Digit(c: char): nat
    requires IsDigit(c)
  {
    c as int - '0' as int
  }

  /** Row `y` has a column `x`, and that character names one of the tile prefabs. */
  predicate CellOk(rows: seq<string>, prefabCount: nat, x: int, y: int)
    requires 0 <= y < |rows| && 0 <= x
  {
    x < |rows[y]| && IsDigit(rows[y][x]) && Digit(rows[y][x]) < prefabCount
  }

  /** Every cell the loops of `CreateLevel` visit is a valid prefab digit; the width is the first row's length. */
  predicate Parses(rows: seq<string>, prefabCount: nat)
  {
    |rows| > 0 &&
    forall y, x :: 0 <= y < |rows| && 0 <= x < |rows[0]| ==> CellOk(rows, prefabCount, x, y)
  }

  /** `PlaceTile`: `int.Parse` of one digit, the prefab at that index, and `Setup` at (x, y). */
  function PlaceTile(tiles: map<Point, Tile>, c: char, x: int, y: int, prefabCount: nat): (r: Option<map<Point, Tile>>)
    ensures r.Some? <==> IsDigit(c) && Digit(c) < prefabCount && Point(x, y) !in tiles
    ensures r.Some? ==> r.value.Keys == tiles.Keys + {Point(x, y)}
    ensures r.Some? ==> r.value[Point(x, y)] == Tile(Point(x, y), Digit(c), true, None)
    ensures r.Some? ==> forall q :: q in tiles ==> r.value[q] == tiles[q]
  {
    if !IsDigit(c) || Digit(c) >= prefabCount then None
    else Setup(tiles, Start(Tile(Point(0, 0), Digit(c), false, None)), Point(x, y))
  }

  /** The tile `CreateLevel` leaves at `p`. */
  predicate BuiltTile(rows: seq<string>, p: Point, t: Tile)
  {
    && 0 <= p.y < |rows| && 0 <= p.x < |rows[p.y]|
    && IsDigit(rows[p.y][p.x])
    && t == Tile(p, Digit(rows[p.y][p.x]), true, None)
  }

  /**
   `CreateLevel` followed by `SpawnPortals`. The size is the first row's length
   by the number of rows; every cell becomes an empty, tower-less tile typed by
   its digit. Any of the source's exceptions yields None: no rows, a row shorter
   than the first, a character that is not a digit or names no prefab, a
   zero width (the lookup of the last tile), or a red portal position outside
   the map.
   */
  method CreateLevel(rows: seq<string>, prefabCount: nat) returns (r: Option<Grid>)
    ensures r.Some? <==> Parses(rows, prefabCount) && |rows[0]| > 0 && InBounds(Point(|rows[0]|, |rows|), RedSpawn)
    ensures r.Some? ==> WellFormed(r.value) && r.value.size == Point(|rows[0]|, |rows|)
    ensures r.Some? ==> forall p :: p in r.value.tiles ==> BuiltTile(rows, p, r.value.tiles[p])
  {
    if |rows| == 0 {
      return None;
    }
    var size := Point(|rows[0]|, |rows|);
    var tiles: map<Point, Tile> := map[];
    for y := 0 to size.y
      invariant forall p :: p in tiles <==> 0 <= p.y < y && 0 <= p.x < size.x
      invariant forall p :: p in tiles ==> BuiltTile(rows, p, tiles[p])
      invariant forall y', x :: 0 <= y' < y && 0 <= x < size.x ==> CellOk(rows, prefabCount, x, y')
    {
      var row := BuildRow(rows, prefabCount, tiles, y, size.x);
      if row.None? {
        return None;
      }
      tiles := row.value;
    }
    if !(InBounds(size, Point(size.x - 1, size.y - 1)) && InBounds(size, RedSpawn)) {
      return None;
    }
    r := Some(Grid(size, tiles));
  }

  /** The inner `for x` loop of `CreateLevel`: place the tiles of row `y`, stopping at the first bad cell. */
  method BuildRow(rows: seq<string>, prefabCount: nat, tiles: map<Point, Tile>, y: nat, width: nat)
    returns (r: Option<map<Point, Tile>>)
    requires y < |rows|
    requires forall p :: p in tiles <==> 0 <= p.y < y && 0 <= p.x < width
    requires forall p :: p in tiles ==> BuiltTile(rows, p, tiles[p])
    ensures r.Some? <==> forall x :: 0 <= x < width ==> CellOk(rows, prefabCount, x, y)
    ensures r.Some? ==> forall p :: p in r.value <==> 0 <= p.y <= y && 0 <= p.x < width
    ensures r.Some? ==> forall p :: p in r.value ==> BuiltTile(rows, p, r.value[p])
  {
    var built := tiles;
    for x := 0 to width
      invariant forall p :: p in built <==> (0 <= p.y < y && 0 <= p.x < width) || (p.y == y && 0 <= p.x < x)
      invariant forall p :: p in built ==> BuiltTile(rows, p, built[p])
      invariant forall x' :: 0 <= x' < x ==> CellOk(rows, prefabCount, x', y)
    {
      if x >= |rows[y]| {
        assert !CellOk(rows, prefabCount, x, y);
        return None;
      }
      var placed := PlaceTile(built, rows[y][x], x, y, prefabCount);
      if placed.None? {
        assert !CellOk(rows, prefabCount, x, y);
        return None;
      }
      built := placed.value;
    }
    r := Some(built);
  }

  // ---------------------------------------------------------------------------
  // The level state and path finding through it

  /** What LevelManager keeps: the grid, the A* node cache (static in the search class) and `fullPath`. */
  datatype Level = Level(grid: Grid, nodes: Option<map<Point, Node>>, fullPath: Option<seq<Node>>)

  /** A level after `CreateLevel`: both portals are on the map and any node cache belongs to this grid. */
  ghost predicate Ready(l: Level)
  {
    && WellFormed(l.grid)
    && InBounds(l.grid.size, BlueSpawn) && InBounds(l.grid.size, RedSpawn)
    && (l.nodes.Some? ==> NodesFor(l.grid, l.nodes.value))
  }

  /**
   `CheckPath`: a tower may go on an empty tile only if the red portal can
   still reach the blue one with that tile blocked. The tile's `IsEmpty` is
   set back afterwards, so the grid is returned unchanged.
   */
  method CheckPath(l: Level, p: Point) returns (ok: bool, l': Level)
    requires Ready(l) && p in l.grid.tiles
    ensures Ready(l') && l'.grid == l.grid && l'.fullPath == l.fullPath
    ensures ok <==> Walkable(l.grid, p) && Reachable(SetEmpty(l.grid, p, false), RedSpawn, BlueSpawn)
  {
    if !l.grid.tiles[p].isEmpty {
      return false, l;
    }
    var blocked := SetEmpty(l.grid, p, false);
    var path, nodes := GetPath(blocked, l.nodes, RedSpawn, BlueSpawn);
    var restored := SetEmpty(blocked, p, true);
    SetEmptyRestores(l.grid, p, false);
    ok := path.Some?;
    l' := Level(restored, Some(nodes), l.fullPath);
  }

  /** `GeneratePath`: search from the blue portal to the red one and keep the result. */
  method GeneratePath(l: Level) returns (l': Level)
    requires Ready(l)
    ensures Ready(l') && l'.grid == l.grid
    ensures l'.fullPath.Some? <==> Reachable(l.grid, BlueSpawn, RedSpawn)
    ensures l'.fullPath.Some? ==> IsPath(l.grid, BlueSpawn, RedSpawn, Positions(l'.fullPath.value))
  {
    var path, nodes := GetPath(l.grid, l.nodes, BlueSpawn, RedSpawn);
    l' := Level(l.grid, Some(nodes), path);
  }

  /** `new Stack<Node>(stack)`: enumerating a stack yields its top first, and pushing in that order reverses it. */
  function CopyStack(s: seq<Node>): (r: seq<Node>)
    ensures |r| == |s|
    ensures forall i :: 0 <= i < |s| ==> r[i] == s[|s| - 1 - i]
    decreases |s|
  {
    if |s| == 0 then [] else CopyStack(s[1..]) + [s[0]]
  }

  /** Copying twice restores the order. */
  lemma CopyTwiceIsIdentity(s: seq<Node>)
    ensures CopyStack(CopyStack(s)) == s
  {
    var c := CopyStack(s);
    var r := CopyStack(c);
    forall i | 0 <= i < |s| ensures r[i] == s[i] {
      assert r[i] == c[|s| - 1 - i];
    }
  }

  /**
   The `Path` property: generate `fullPath` on first use and hand out a copy in
   the same pop order. With no route, `new Stack<Node>(null)` throws (None).
   A cached path is handed out as it is, even when the grid has changed since
   it was generated.
   */
  method Path(l: Level) returns (r: Option<seq<Node>>, l': Level)
    requires Ready(l)
    ensures Ready(l') && l'.grid == l.grid
    ensures r == l'.fullPath
    ensures l.fullPath.Some? ==> l' == l && r == l.fullPath
    ensures l.fullPath.None? ==> (r.Some? <==> Reachable(l.grid, BlueSpawn, RedSpawn))
    ensures l.fullPath.None? && r.Some? ==> IsPath(l.grid, BlueSpawn, RedSpawn, Positions(r.value))
  {
    l' := l;
    if l.fullPath.None? {
      l' := GeneratePath(l);
    }
    match l'.fullPath
    case None => r := None;
    case Some(path) =>
      CopyTwiceIsIdentity(path);
      r := Some(CopyStack(CopyStack(path)));
  }
}

=== FILE: Lists.dfy ===
/** `List<T>.Remove`, shared by the monster's debuff lists and the game's active-monster list. */
module Lists {
  /** Drop the first occurrence of `x`, if any. */
  function RemoveFirst<T(==)>(s: seq<T>, x: T): (r: seq<T>)
    ensures multiset(r) == multiset(s) - multiset{x}
    ensures x !in s ==> r == s
    ensures x in s ==> |r| == |s| - 1
    ensures forall y :: y in r ==> y in s
  {
    if |s| == 0 then s
    else
      assert s == [s[0]] + s[1..];
      if s[0] == x then s[1..]
      else [s[0]] + RemoveFirst(s[1..], x)
  }

  /** Index of the first occurrence of `x`. */
  function FirstIndex<T(==)>(s: seq<T>, x: T): (i: nat)
    requires x in s
    ensures i < |s| && s[i] == x && x !in s[..i]
    ensures forall k :: 0 <= k < i ==> s[k] != x
  {
    if s[0] == x then 0 else 1 + FirstIndex(s[1..], x)
  }

  /** No element occurs twice. */
  ghost predicate Distinct<T>(s: seq<T>)
  {
    forall i, j :: 0 <= i < j < |s| ==> s[i] != s[j]
  }

  /** Removing from a list without repeats leaves a list without repeats that no longer holds `x`. */
  lemma {:induction false} RemoveFirstDistinct<T>(s: seq<T>, x: T)
    requires Distinct(s)
    ensures Distinct(RemoveFirst(s, x)) && x !in RemoveFirst(s, x)
  {
    if |s| > 0 {
      var t := s[1..];
      assert Distinct(t) by {
        forall i, j | 0 <= i < j < |t| ensures t[i] != t[j] {
          assert t[i] == s[i + 1] && t[j] == s[j + 1];
        }
      }
      if s[0] != x {
        RemoveFirstDistinct(t, x);
        var u := RemoveFirst(t, x);
        assert s[0] !in t by {
          forall j | 0 <= j < |t| ensures t[j] != s[0] {
            assert t[j] == s[j + 1];
          }
        }
        assert s[0] !in u;
        var r := [s[0]] + u;
        assert RemoveFirst(s, x) == r;
        forall i, j | 0 <= i < j < |r| ensures r[i] != r[j] {
          assert r[j] == u[j - 1];
          if i > 0 {
            assert r[i] == u[i - 1];
            assert u[i - 1] != u[j - 1];
          }
        }
      } else {
        assert RemoveFirst(s, x) == t;
        forall j | 0 <= j < |t| ensures t[j] != x {
          assert t[j] == s[j + 1];
        }
      }
    }
  }
}

=== FILE: Monsters.dfy ===
/**
 Monster: a Unit with health, an element, a growing resistance to its own
 element, and three debuff lists (active, newly added, due for removal). The
 per-class debuff effects and their timers are not part of this model; a
 debuff's timer running out is an input.
 */
module Monsters {
  import opened Options
  import opened Elements
  import opened Points
  import opened Nodes
  import opened Units
  import opened Lists

  /** A debuff object: its class (one class per element) and its identity. */
  datatype Debuff = Debuff(kind: Element, id: nat)

  datatype Monster = Monster(
    unit: Unit,
    health: real,
    maxHealth: real,
    element: Element,
    invulnerability: int,
    debuffs: seq<Debuff>,
    newDebuffs: seq<Debuff>,
    debuffsToRemove: seq<Debuff>,
    speed: real,
    maxSpeed: real)

  /** Every monster starts with `invulnerability` 2, and it only ever grows. */
  ghost predicate Valid(m: Monster)
  {
    m.invulnerability >= 2
  }

  /**
   The field initialisers and `Awake` of a monster instantiated from a prefab:
   resistance 2, all three debuff lists empty (a `Debuff` is not serialised
   with the prefab), and the prefab's speed remembered as the maximum.
   */
  function Awake(prefab: Monster): (m: Monster)
    ensures Valid(m) && m.invulnerability == 2
    ensures m.debuffs == [] && m.newDebuffs == [] && m.debuffsToRemove == []
    ensures m.maxSpeed == prefab.speed && m.speed == prefab.speed
    ensures m.unit == prefab.unit && m.element == prefab.element
    ensures m.health == prefab.health && m.maxHealth == prefab.maxHealth
  {
    prefab.(invulnerability := 2, debuffs := [], newDebuffs := [], debuffsToRemove := [], maxSpeed := prefab.speed)
  }

  /** `Alive`: health above zero. */
  predicate Alive(m: Monster)
  {
    m.health > 0.0
  }

  predicate HasKind(ds: seq<Debuff>, k: Element)
  {
    exists i :: 0 <= i < |ds| && ds[i].kind == k
  }

  /**
   `AddDebuff`: queue the debuff unless one of the same class is already
   active. Only the active list is consulted, not the queue.
   */
  function AddDebuff(m: Monster, d: Debuff): (r: Monster)
    ensures HasKind(m.debuffs, d.kind) ==> r == m
    ensures !HasKind(m.debuffs, d.kind) ==> r == m.(newDebuffs := m.newDebuffs + [d])
  {
    if HasKind(m.debuffs, d.kind) then m else m.(newDebuffs := m.newDebuffs + [d])
  }

  /** Two debuffs of one class added in the same frame, before any active one exists, are both queued. */
  lemma SameFrameDuplicates(m: Monster, d1: Debuff, d2: Debuff)
    requires !HasKind(m.debuffs, d1.kind) && d2.kind == d1.kind
    ensures AddDebuff(AddDebuff(m, d1), d2).newDebuffs == m.newDebuffs + [d1, d2]
  {
    assert AddDebuff(m, d1).debuffs == m.debuffs;
  }

  /** The `foreach` over `DebuffsToRemove`: one `Remove` per entry. */
  function RemoveEach(s: seq<Debuff>, rs: seq<Debuff>): (r: seq<Debuff>)
    ensures multiset(r) == multiset(s) - multiset(rs)
    decreases |rs|
  {
    if |rs| == 0 then s
    else
      assert rs == [rs[0]] + rs[1..];
      RemoveEach(RemoveFirst(s, rs[0]), rs[1..])
  }

  /** The debuffs whose `Update` finds their time is up; `Remove` queues each for removal, in list order. */
  function Expiring(ds: seq<Debuff>, expired: Debuff -> bool): (r: seq<Debuff>)
    ensures forall d :: d in r <==> d in ds && expired(d)
    ensures multiset(r) <= multiset(ds)
  {
    if |ds| == 0 then []
    else
      assert ds == [ds[0]] + ds[1..];
      (if expired(ds[0]) then [ds[0]] else []) + Expiring(ds[1..], expired)
  }

  /**
   `HandleDebuffs`, one frame: the queued debuffs become active, the ones due
   for removal are removed (one occurrence each), and each remaining debuff's
   update may queue it for removal next frame.
   */
  function HandleDebuffs(m: Monster, expired: Debuff -> bool): (r: Monster)
    ensures multiset(r.debuffs) == multiset(m.debuffs + m.newDebuffs) - multiset(m.debuffsToRemove)
    ensures r.newDebuffs == []
    ensures forall d :: d in r.debuffsToRemove <==> d in r.debuffs && expired(d)
    ensures r.unit == m.unit && r.health == m.health && r.invulnerability == m.invulnerability
  {
    var active := if |m.newDebuffs| > 0 then m.debuffs + m.newDebuffs else m.debuffs;
    assert m.newDebuffs == [] ==> m.debuffs + m.newDebuffs == m.debuffs;
    var kept := RemoveEach(active, m.debuffsToRemove);
    m.(debuffs := kept, newDebuffs := [], debuffsToRemove := Expiring(kept, expired))
  }

  /**
   `TakeDamage`. An inactive monster ignores the hit. Damage of the monster's
   own element is divided by the current resistance, which then grows by one.
   A hit that brings health to zero or below pays 2 currency and deactivates
   the monster. Returns the monster and the currency paid.
   */
  function TakeDamage(m: Monster, damage: real, source: Element): (r: (Monster, int))
    requires Valid(m)
    ensures Valid(r.0)
    ensures !m.unit.isActive ==> r == (m, 0)
    ensures m.unit.isActive && source == m.element ==>
      r.0.health == m.health - damage / (m.invulnerability as real) && r.0.invulnerability == m.invulnerability + 1
    ensures m.unit.isActive && source != m.element ==>
      r.0.health == m.health - damage && r.0.invulnerability == m.invulnerability
    ensures m.unit.isActive ==> (r.1 == 2 <==> !Alive(r.0)) && (r.1 == 0 <==> Alive(r.0))
    ensures m.unit.isActive ==> r.0.unit.isActive == Alive(r.0)
    ensures r.0.element == m.element && r.0.debuffs == m.debuffs && r.0.unit.gridPosition == m.unit.gridPosition
  {
    if !m.unit.isActive then (m, 0)
    else
      var (dealt, inv) :=
        if source == m.element then (damage / (m.invulnerability as real), m.invulnerability + 1)
        else (damage, m.invulnerability);
      var m1 := m.(health := m.health - dealt, invulnerability := inv);
      if m1.health <= 0.0 then (m1.(unit := m1.unit.(isActive := false)), 2) else (m1, 0)
  }

  /** The kill reward is paid once: after a killing blow every later hit is ignored. */
  lemma RewardPaidOnce(m: Monster, d1: real, s1: Element, d2: real, s2: Element)
    requires Valid(m) && TakeDamage(m, d1, s1).1 == 2
    ensures var m1 := TakeDamage(m, d1, s1).0;
      TakeDamage(m1, d2, s2) == (m1, 0)
  {
  }

  /** A non-negative hit of the monster's own element costs at most half of it, and the next one will cost less. */
  lemma OwnElementResisted(m: Monster, d: real)
    requires Valid(m) && m.unit.isActive && d >= 0.0
    ensures var m1 := TakeDamage(m, d, m.element).0;
      m.health - m1.health <= d / 2.0 && m1.invulnerability > m.invulnerability
  {
    var inv := m.invulnerability as real;
    assert d / inv <= d / 2.0 by {
      assert inv >= 2.0;
      assert d / inv * inv == d;
      assert d / 2.0 * 2.0 == d;
    }
  }

  /**
   `Spawn`: full health, no active debuffs, and the level path set without
   activating the monster (the scale-in coroutine activates it). Resistance
   and the pending debuff lists carry over from the pooled object's last life.
   */
  function Spawn(m: Monster, health: int, path: Option<seq<Node>>): (r: Monster)
    requires path.Some? ==> |path.value| > 0
    ensures r.health == health as real && r.maxHealth == health as real && r.debuffs == []
    ensures r.invulnerability == m.invulnerability && r.newDebuffs == m.newDebuffs
    ensures r.unit == SetPath(m.unit, path, false)
    ensures path.Some? ==> !r.unit.isActive
  {
    m.(health := health as real, maxHealth := health as real, debuffs := [], unit := SetPath(m.unit, path, false))
  }

  /**
   The monster's own part of `Release`: every active debuff queues itself for
   removal, the grid position goes back to (0, 0) and the speed to its maximum.
   */
  function Release(m: Monster): (r: Monster)
    ensures r.debuffsToRemove == m.debuffsToRemove + m.debuffs && r.debuffs == m.debuffs
    ensures r.unit.gridPosition == Point(0, 0) && r.speed == m.maxSpeed
    ensures r.health == m.health && r.invulnerability == m.invulnerability
  {
    m.(debuffsToRemove := m.debuffsToRemove + m.debuffs,
       unit := m.unit.(gridPosition := Point(0, 0)),
       speed := m.maxSpeed)
  }

  /**
   A released object gets no `Update` until the pool hands it out again and it
   is spawned; the first debuff update after that keeps only debuffs that were
   still queued when it was released.
   */
  lemma ReleaseClearsDebuffs(m: Monster, health: int, path: Option<seq<Node>>, expired: Debuff -> bool)
    requires path.Some? ==> |path.value| > 0
    ensures multiset(HandleDebuffs(Spawn(Release(m), health, path), expired).debuffs) <= multiset(m.newDebuffs)
  {
    var r := Spawn(Release(m), health, path);
    assert multiset(r.debuffs + r.newDebuffs) == multiset(m.newDebuffs);
    assert multiset(r.debuffsToRemove) == multiset(m.debuffsToRemove) + multiset(m.debuffs);
  }
}

=== FILE: Moves.dfy ===
/**
 The move relation the A* search explores (Astar.cs): 8-directional steps onto
 walkable in-bounds tiles, axial steps costing 10 and diagonal ones 14, and
 diagonal steps refused when a flanking tile is blocked. Walks built from
 these steps, their cost, and the fact that a walk can be reversed.
 */
module Moves {
  import opened Points
  import opened Grids
  import opened Lists

  /**
   The k-th position looked at by the nested `for x` / `for y` loops of GetPath,
   with x = k / 3 - 1 and y = k % 3 - 1: the position `c - (x, y)`.
   */
  function Neighbour(c: Point, k: int): Point
    requires 0 <= k < 9
  {
    Point(c.x - (k / 3 - 1), c.y - (k % 3 - 1))
  }

  /** One of the eight cells around `a`. */
  predicate Adjacent(a: Point, b: Point)
  {
    a != b && -1 <= a.x - b.x <= 1 && -1 <= a.y - b.y <= 1
  }

  /** The loop index at which the search looks at `b` while expanding `a`. */
  function OffsetIndex(a: Point, b: Point): int
  {
    (a.x - b.x + 1) * 3 + (a.y - b.y + 1)
  }

  /** The nine loop offsets are exactly the cell itself and its eight adjacent cells. */
  lemma NeighbourEnumeration(c: Point, k: int)
    requires 0 <= k < 9
    ensures k == 4 <==> Neighbour(c, k) == c
    ensures k != 4 <==> Adjacent(c, Neighbour(c, k))
    ensures OffsetIndex(c, Neighbour(c, k)) == k
  {
  }

  /** Every adjacent cell is looked at by some iteration of the neighbour loops. */
  lemma AdjacentIsNeighbour(a: Point, b: Point)
    requires Adjacent(a, b)
    ensures 0 <= OffsetIndex(a, b) < 9 && Neighbour(a, OffsetIndex(a, b)) == b
  {
    var dx, dy := a.x - b.x, a.y - b.y;
    var k := OffsetIndex(a, b);
    assert k == 3 * (dx + 1) + (dy + 1);
    assert k / 3 == dx + 1 && k % 3 == dy + 1;
  }

  /** The source's axial test `|x - y| % 2 == 1` on the loop offsets x = a.x - b.x, y = a.y - b.y. */
  predicate AxialOffset(a: Point, b: Point)
  {
    Abs((a.x - b.x) - (a.y - b.y)) % 2 == 1
  }

  /** The G increment of a step: 10 on the axial branch, 14 on the diagonal one. */
  function MoveCost(a: Point, b: Point): int
  {
    if AxialOffset(a, b) then 10 else 14
  }

  /** Between adjacent cells the parity test recognises exactly the horizontal and vertical steps. */
  lemma MoveCostClassifies(a: Point, b: Point)
    requires Adjacent(a, b)
    ensures AxialOffset(a, b) <==> (a.x == b.x || a.y == b.y)
    ensures MoveCost(a, b) == 10 <==> (a.x == b.x || a.y == b.y)
    ensures MoveCost(a, b) == 14 <==> (a.x != b.x && a.y != b.y)
  {
  }

  /** `ConnectedDiagonally`'s two cells, computed through the direction `a - b` as the source does. */
  function Corners(a: Point, b: Point): (r: (Point, Point))
    ensures r == (Point(b.x, a.y), Point(a.x, b.y))
  {
    var direction := Sub(a, b);
    (Point(a.x + direction.x * -1, a.y), Point(a.x, a.y + direction.y * -1))
  }

  /** For a diagonal step the two corner cells are the orthogonal neighbours shared by both ends. */
  lemma CornersFlankDiagonal(a: Point, b: Point)
    requires Adjacent(a, b) && !AxialOffset(a, b)
    ensures var (first, second) := Corners(a, b);
      && Adjacent(a, first) && Adjacent(first, b) && Adjacent(a, second) && Adjacent(second, b)
      && first != second
  {
  }

  /** Between two in-bounds cells the corners are in bounds too, so the out-of-bounds clause never fires inside a grid. */
  lemma CornersInBounds(size: Point, a: Point, b: Point)
    requires InBounds(size, a) && InBounds(size, b)
    ensures InBounds(size, Corners(a, b).0) && InBounds(size, Corners(a, b).1)
  {
  }

  /** A cell that does not block a diagonal: outside the map, or walkable. */
  predicate Open(g: Grid, p: Point)
    requires WellFormed(g)
  {
    InBounds(g.size, p) ==> Walkable(g, p)
  }

  /** `ConnectedDiagonally`: refuse when either corner cell is in bounds and not empty. */
  function ConnectedDiagonally(g: Grid, a: Point, b: Point): (r: bool)
    requires WellFormed(g)
    ensures r <==> Open(g, Point(b.x, a.y)) && Open(g, Point(a.x, b.y))
  {
    var (first, second) := Corners(a, b);
    if InBounds(g.size, first) && !Walkable(g, first) then false
    else if InBounds(g.size, second) && !Walkable(g, second) then false
    else true
  }

  /** A move the search may take from `a` to `b` (before the start-cell exclusion). */
  predicate Step(g: Grid, a: Point, b: Point)
    requires WellFormed(g)
  {
    && Adjacent(a, b)
    && InBounds(g.size, b)
    && Walkable(g, b)
    && (AxialOffset(a, b) || ConnectedDiagonally(g, a, b))
  }

  /** The moves GetPath admits: a step that does not land on the search's start cell. */
  predicate Admissible(g: Grid, start: Point, a: Point, b: Point)
    requires WellFormed(g)
  {
    b != start && Step(g, a, b)
  }

  /** `t` is a trail of admissible moves. */
  ghost predicate Chain(g: Grid, start: Point, t: seq<Point>)
    requires WellFormed(g)
  {
    forall i :: 0 < i < |t| ==> Admissible(g, start, t[i - 1], t[i])
  }

  /** `w` is the waypoint sequence of a route from `start` (excluded) to `goal` (included). */
  ghost predicate IsPath(g: Grid, start: Point, goal: Point, w: seq<Point>)
    requires WellFormed(g)
  {
    |w| > 0 && w[|w| - 1] == goal && Chain(g, start, [start] + w)
  }

  ghost predicate Reachable(g: Grid, start: Point, goal: Point)
    requires WellFormed(g)
  {
    exists w :: IsPath(g, start, goal, w)
  }

  /** Total cost of a trail: the sum of its step costs. */
  function PathCost(t: seq<Point>): (c: int)
    ensures 10 * (|t| - 1) <= c <= 14 * (|t| - 1) || |t| == 0
    decreases |t|
  {
    if |t| < 2 then 0 else MoveCost(t[0], t[1]) + PathCost(t[1..])
  }

  /** Every waypoint of a route is in bounds, walkable, not the start, and adjacent to its predecessor. */
  lemma PathWaypoints(g: Grid, start: Point, goal: Point, w: seq<Point>, i: int)
    requires WellFormed(g) && IsPath(g, start, goal, w) && 0 <= i < |w|
    ensures w[i] != start && InBounds(g.size, w[i]) && Walkable(g, w[i])
    ensures Adjacent(if i == 0 then start else w[i - 1], w[i])
  {
    var t := [start] + w;
    assert t[i + 1] == w[i] && t[i] == if i == 0 then start else w[i - 1];
  }

  /** A blocked cell is never the goal of a route. */
  lemma BlockedGoalUnreachable(g: Grid, start: Point, goal: Point)
    requires WellFormed(g) && goal in g.tiles && !Walkable(g, goal)
    ensures !Reachable(g, start, goal)
  {
    if w :| IsPath(g, start, goal, w) {
      PathWaypoints(g, start, goal, w, |w| - 1);
    }
  }

  /** Moves are symmetric between walkable cells: the corner rule does not depend on the direction. */
  lemma StepSymmetric(g: Grid, a: Point, b: Point)
    requires WellFormed(g) && Step(g, a, b) && InBounds(g.size, a) && Walkable(g, a)
    ensures Step(g, b, a)
  {
  }

  /** A route from `a` cut at its first visit of `b`: a trail of walkable cells that meets `b` only at its end. */
  lemma TrimAtGoal(g: Grid, a: Point, b: Point, w: seq<Point>) returns (u: seq<Point>)
    requires WellFormed(g) && InBounds(g.size, a) && Walkable(g, a) && a != b
    requires IsPath(g, a, b, w)
    ensures |u| >= 2 && u[0] == a && u[|u| - 1] == b && Chain(g, a, u)
    ensures forall i :: 0 <= i < |u| ==> InBounds(g.size, u[i]) && Walkable(g, u[i])
    ensures forall i :: 0 <= i < |u| - 1 ==> u[i] != b
  {
    var t := [a] + w;
    assert t[|t| - 1] == b;
    var j := FirstIndex(t, b);
    u := t[..j + 1];
    forall i | 0 < i < |u| ensures Admissible(g, a, u[i - 1], u[i]) {
      assert u[i - 1] == t[i - 1] && u[i] == t[i];
    }
    forall i | 0 <= i < |u| ensures InBounds(g.size, u[i]) && Walkable(g, u[i]) {
      if i > 0 { assert Admissible(g, a, u[i - 1], u[i]); }
    }
  }

  /** Walking such a trail backwards is a route from its end to its start. */
  lemma BackwardsIsPath(g: Grid, a: Point, b: Point, u: seq<Point>)
    requires WellFormed(g) && |u| >= 2 && u[0] == a && u[|u| - 1] == b && Chain(g, a, u)
    requires forall i :: 0 <= i < |u| ==> InBounds(g.size, u[i]) && Walkable(g, u[i])
    requires forall i :: 0 <= i < |u| - 1 ==> u[i] != b
    ensures IsPath(g, b, a, seq(|u| - 1, i requires 0 <= i < |u| - 1 => u[|u| - 2 - i]))
  {
    var j := |u| - 1;
    var back := seq(j, i requires 0 <= i < j => u[j - 1 - i]);
    var r := [b] + back;
    assert forall i :: 0 <= i < |r| ==> r[i] == u[j - i];
    forall i | 0 < i < |r|
      ensures Admissible(g, b, r[i - 1], r[i])
    {
      assert r[i - 1] == u[j - i + 1] && r[i] == u[j - i];
      assert Admissible(g, a, u[j - i], u[j - i + 1]);
      StepSymmetric(g, u[j - i], u[j - i + 1]);
    }
    assert back[|back| - 1] == a;
  }

  /**
   A route from a walkable `a` to `b` can be walked back from `b` to `a`.
   This is what lets a check that searches Red -> Blue vouch for the Blue -> Red
   path monsters take.
   */
  lemma ReachableReverses(g: Grid, a: Point, b: Point)
    requires WellFormed(g) && InBounds(g.size, a) && Walkable(g, a) && a != b
    requires Reachable(g, a, b)
    ensures Reachable(g, b, a)
  {
    var w :| IsPath(g, a, b, w);
    var u := TrimAtGoal(g, a, b, w);
    BackwardsIsPath(g, a, b, u);
  }

  /** `h` has the cells of `g`, and every cell walkable in `g` is walkable in `h`. */
  ghost predicate AtLeastAsOpen(g: Grid, h: Grid)
  {
    && WellFormed(g) && WellFormed(h) && g.size == h.size
    && forall p :: p in g.tiles && g.tiles[p].isEmpty ==> h.tiles[p].isEmpty
  }

  /** Opening cells never takes a route away; in particular routes only depend on which cells are walkable. */
  lemma OpeningKeepsRoutes(g: Grid, h: Grid, a: Point, b: Point)
    requires AtLeastAsOpen(g, h) && Reachable(g, a, b)
    ensures Reachable(h, a, b)
  {
    var w :| IsPath(g, a, b, w);
    var t := [a] + w;
    forall i | 0 < i < |t| ensures Admissible(h, a, t[i - 1], t[i]) {
      assert Admissible(g, a, t[i - 1], t[i]);
      var (c1, c2) := Corners(t[i - 1], t[i]);
      assert Open(g, c1) ==> Open(h, c1);
      assert Open(g, c2) ==> Open(h, c2);
    }
    assert IsPath(h, a, b, w);
  }
}

=== FILE: Nodes.dfy ===
/**
 The A* bookkeeping record (Node.cs). The parent link is a grid position
 rather than an object reference; the cached world position is an opaque
 function of the grid position and is not carried.
 */
module Nodes {
  import opened Options
  import opened Points
  import opened Grids

  datatype Node = Node(gridPosition: Point, g: int, h: int, f: int, parent: Option<Point>)

  /** The zero state every field but the position has after construction or `Reset`. */
  predicate IsReset(n: Node)
  {
    n.g == 0 && n.h == 0 && n.f == 0 && n.parent.None?
  }

  /** The constructor: copies the tile's grid position; G, H, F default to 0 and Parent to null. */
  function NewNode(t: Tile): (n: Node)
    ensures n.gridPosition == t.gridPosition && IsReset(n)
  {
    Node(t.gridPosition, 0, 0, 0, None)
  }

  /** The heuristic of `CalcValues`: ten times the Manhattan distance to the goal. */
  function Heuristic(p: Point, goal: Point): (h: int)
    ensures h >= 0 && h % 10 == 0
    ensures h == 0 <==> p == goal
  {
    (Abs(p.x - goal.x) + Abs(goal.y - p.y)) * 10
  }

  /** `CalcValues`: adopt `parent`, extend its G by the step cost, recompute H and keep F = G + H. */
  function CalcValues(n: Node, parent: Node, goal: Node, cost: int): (r: Node)
    ensures r.gridPosition == n.gridPosition
    ensures r.parent == Some(parent.gridPosition)
    ensures r.g == parent.g + cost
    ensures r.h == Heuristic(n.gridPosition, goal.gridPosition)
    ensures r.f == r.g + r.h
  {
    var g := parent.g + cost;
    var h := Heuristic(n.gridPosition, goal.gridPosition);
    Node(n.gridPosition, g, h, g + h, Some(parent.gridPosition))
  }

  /** `Reset`: clears the search fields and keeps the position. */
  function Reset(n: Node): (r: Node)
    ensures r.gridPosition == n.gridPosition && IsReset(r)
  {
    Node(n.gridPosition, 0, 0, 0, None)
  }

  /** Whatever a previous search left in a node, resetting it gives the same node. */
  lemma ResetForgetsSearch(a: Node, b: Node)
    requires a.gridPosition == b.gridPosition
    ensures Reset(a) == Reset(b)
  {
  }

  /** `CompareTo`: the sign of the difference of the F scores. */
  function CompareTo(a: Node, b: Node): (r: int)
    ensures r == 1 <==> a.f > b.f
    ensures r == -1 <==> a.f < b.f
    ensures r == 0 <==> a.f == b.f
  {
    if a.f > b.f then 1 else if a.f < b.f then -1 else 0
  }

  /** `CompareTo` is antisymmetric and transitive, as `IComparable` requires. */
  lemma CompareToIsOrdering(a: Node, b: Node, c: Node)
    ensures CompareTo(a, b) == -CompareTo(b, a)
    ensures CompareTo(a, b) <= 0 && CompareTo(b, c) <= 0 ==> CompareTo(a, c) <= 0
    ensures CompareTo(a, b) == 0 && CompareTo(b, c) == 0 ==> CompareTo(a, c) == 0
  {
  }
}

=== FILE: Options.dfy ===
/** The model's stand-in for a C# reference that may be `null`. */
module Options {

  datatype Option<+T> = None | Some(value: T)
}

=== FILE: Points.dfy ===
/**
 The integer grid coordinate used as the key of every tile and path node,
 with its operators. C# `int` division truncates toward zero, which Dafny's
 Euclidean `/` does not, so it is written out as `TruncDiv`.
 */
module Points {

  datatype Point = Point(x: int, y: int)

  function Abs(n: int): (r: nat)
    ensures r == n || r == -n
  {
    if n < 0 then -n else n
  }

  /** `operator ==`: componentwise comparison, i.e. value equality. */
  function Eq(a: Point, b: Point): (r: bool)
    ensures r <==> a == b
  {
    a.x == b.x && a.y == b.y
  }

  /** `operator !=`: written independently in the source; it is the exact negation of `==`. */
  function Neq(a: Point, b: Point): (r: bool)
    ensures r <==> !Eq(a, b)
  {
    a.x != b.x || a.y != b.y
  }

  /** `Equals(object)`: casts and compares both components, agreeing with `==`. */
  function Equals(a: Point, b: Point): (r: bool)
    ensures r == Eq(a, b)
  {
    a.x == b.x && a.y == b.y
  }

  /** `operator -`: componentwise difference; adding `b` back recovers `a`. */
  function Sub(a: Point, b: Point): (r: Point)
    ensures r.x + b.x == a.x && r.y + b.y == a.y
    ensures r == Point(0, 0) <==> a == b
  {
    Point(a.x - b.x, a.y - b.y)
  }

  /** `q` is the quotient of `a` by `d` rounded toward zero: the remainder has the sign of `a`. */
  ghost predicate IsTruncatedQuotient(a: int, d: int, q: int)
    requires d != 0
  {
    var rem := a - q * d;
    && (0 <= a ==> 0 <= rem < Abs(d))
    && (a < 0 ==> 0 < rem + Abs(d) && rem <= 0)
  }

  /** C# integer division. Division by zero throws in the source, so callers must avoid it. */
  function TruncDiv(a: int, d: int): (q: int)
    requires d != 0
    ensures IsTruncatedQuotient(a, d, q)
  {
    var m := Abs(a) / Abs(d);
    var q := if (a < 0) == (d < 0) then m else -m;
    TruncDivCorrect(a, d, m, q);
    q
  }

  lemma TruncDivCorrect(a: int, d: int, m: int, q: int)
    requires d != 0 && m == Abs(a) / Abs(d)
    requires q == if (a < 0) == (d < 0) then m else -m
    ensures IsTruncatedQuotient(a, d, q)
  {
    var A, D := Abs(a), Abs(d);
    var P := m * D;
    assert A == P + A % D;
    assert 0 <= A % D < D;
    if d < 0 {
      assert q * d == -(q * D);
    } else {
      assert q * d == q * D;
    }
    if q == m {
      assert q * D == P;
    } else {
      assert q * D == -P;
    }
  }

  /** `operator /`: componentwise truncating division. */
  function Div(p: Point, d: int): (r: Point)
    requires d != 0
    ensures IsTruncatedQuotient(p.x, d, r.x) && IsTruncatedQuotient(p.y, d, r.y)
  {
    Point(TruncDiv(p.x, d), TruncDiv(p.y, d))
  }

  /** The truncated quotient is unique, so `Div` is fully determined by its contract. */
  lemma TruncatedQuotientUnique(a: int, d: int, q1: int, q2: int)
    requires d != 0
    requires IsTruncatedQuotient(a, d, q1) && IsTruncatedQuotient(a, d, q2)
    ensures q1 == q2
  {
    var k, D := q2 - q1, Abs(d);
    var r1, r2 := a - q1 * d, a - q2 * d;
    MulSub(q2, q1, d);
    assert r1 - r2 == k * d;
    assert -D < r1 - r2 < D;
    AbsMul(k, d);
    SmallMultipleIsZero(Abs(k), D);
  }

  lemma MulSub(x: int, y: int, d: int)
    ensures (x - y) * d == x * d - y * d
  {
  }

  lemma AbsMul(k: int, d: int)
    ensures Abs(k * d) == Abs(k) * Abs(d)
  {
    if k < 0 && d < 0 {
      assert k * d == (-k) * (-d);
    } else if k < 0 {
      assert k * d == -((-k) * d);
    } else if d < 0 {
      assert k * d == -(k * (-d));
    }
  }

  lemma SmallMultipleIsZero(n: nat, D: int)
    requires D > 0 && n * D < D
    ensures n == 0
  {
    assert (n - 1) * D < 0;
  }

  /** For a negative dividend C# and Dafny disagree: -3 / 2 is -1 in C#, -2 in Dafny. */
  lemma TruncDivDiffersFromEuclidean()
    ensures TruncDiv(-3, 2) == -1 && -3 / 2 == -2
  {
  }
}

=== FILE: Pooling.dfy ===
/**
 ObjectPool: objects are recycled by name. An object is asked for by its name;
 an inactive pooled object of that name is reactivated, otherwise a new one is
 instantiated from the prefab of that name and added to the pool.
 */
module Pooling {
  import opened Options

  /** A GameObject as the pool sees it: its name, `activeInHierarchy`, and its component state. */
  datatype Pooled<T> = Pooled(name: string, active: bool, value: T)

  /** The prefab array and the list of pooled objects; an object is identified by its index in that list. */
  datatype Pool<T> = Pool(prefabs: seq<Pooled<T>>, objects: seq<Pooled<T>>)

  /** Index of the first element of `objs` at or after `from` that is inactive and named `name`. */
  function FindFree<T>(objs: seq<Pooled<T>>, name: string, from: nat): (r: Option<nat>)
    requires from <= |objs|
    ensures r.Some? ==> from <= r.value < |objs| && objs[r.value].name == name && !objs[r.value].active
    ensures r.Some? ==> forall j :: from <= j < r.value ==> !(objs[j].name == name && !objs[j].active)
    ensures r.None? ==> forall j :: from <= j < |objs| ==> !(objs[j].name == name && !objs[j].active)
    decreases |objs| - from
  {
    if from == |objs| then None
    else if objs[from].name == name && !objs[from].active then Some(from)
    else FindFree(objs, name, from + 1)
  }

  /** Index of the first prefab at or after `from` named `name`. */
  function FindPrefab<T>(prefabs: seq<Pooled<T>>, name: string, from: nat): (r: Option<nat>)
    requires from <= |prefabs|
    ensures r.Some? ==> from <= r.value < |prefabs| && prefabs[r.value].name == name
    ensures r.Some? ==> forall j :: from <= j < r.value ==> prefabs[j].name != name
    ensures r.None? ==> forall j :: from <= j < |prefabs| ==> prefabs[j].name != name
    decreases |prefabs| - from
  {
    if from == |prefabs| then None
    else if prefabs[from].name == name then Some(from)
    else FindPrefab(prefabs, name, from + 1)
  }

  /**
   `GetObject`: the first inactive pooled object named `name`, reactivated; else
   a new active object copied from the first prefab of that name and appended;
   else null (None) with the pool unchanged. Nothing already pooled is touched
   except the object handed out, and the pool never shrinks.
   */
  function GetObject<T>(p: Pool<T>, name: string): (r: (Pool<T>, Option<nat>))
    ensures var (p', i) := r;
      && p'.prefabs == p.prefabs
      && |p.objects| <= |p'.objects| <= |p.objects| + 1
      && (|p'.objects| == |p.objects| + 1 ==> i == Some(|p.objects|))
      && (i.Some? ==> i.value < |p'.objects| && p'.objects[i.value].name == name && p'.objects[i.value].active)
      && (i.Some? && i.value < |p.objects| ==>
            !p.objects[i.value].active && p'.objects[i.value] == p.objects[i.value].(active := true))
      && (i.Some? ==> i.value <= |p.objects|)
      && (forall j :: 0 <= j < |p.objects| && Some(j) != i ==> p'.objects[j] == p.objects[j])
      && ((exists j :: 0 <= j < |p.objects| && p.objects[j].name == name && !p.objects[j].active) ==>
            i.Some? && i.value < |p.objects| && p'.objects == p.objects[i.value := p.objects[i.value].(active := true)]
            && (forall j :: 0 <= j < i.value ==> !(p.objects[j].name == name && !p.objects[j].active)))
      && (i.None? <==> p' == p)
      && (i.None? <==> (forall j :: 0 <= j < |p.objects| ==> !(p.objects[j].name == name && !p.objects[j].active))
                       && (forall j :: 0 <= j < |p.prefabs| ==> p.prefabs[j].name != name))
      && (i.Some? && i.value == |p.objects| ==>
            (&& |p'.objects| == |p.objects| + 1
             && exists j :: 0 <= j < |p.prefabs| && p.prefabs[j].name == name && p'.objects[i.value].value == p.prefabs[j].value))
  {
    match FindFree(p.objects, name, 0)
    case Some(i) => (p.(objects := p.objects[i := p.objects[i].(active := true)]), Some(i))
    case None =>
      match FindPrefab(p.prefabs, name, 0)
      case Some(k) =>
        (p.(objects := p.objects + [Pooled(name, true, p.prefabs[k].value)]), Some(|p.objects|))
      case None => (p, None)
  }

  /** `ReleaseObject`: deactivate the object; it stays in the pool. */
  function ReleaseObject<T>(p: Pool<T>, i: nat): (p': Pool<T>)
    requires i < |p.objects|
    ensures p'.prefabs == p.prefabs && |p'.objects| == |p.objects|
    ensures !p'.objects[i].active && p'.objects[i].name == p.objects[i].name && p'.objects[i].value == p.objects[i].value
    ensures forall j :: 0 <= j < |p.objects| && j != i ==> p'.objects[j] == p.objects[j]
  {
    p.(objects := p.objects[i := p.objects[i].(active := false)])
  }

  /** Asking again for a released object's name reuses a pooled object (that one or an earlier free one) instead of creating one. */
  lemma ReleaseThenReuse<T>(p: Pool<T>, i: nat)
    requires i < |p.objects|
    ensures var p1 := ReleaseObject(p, i);
      var (p2, r) := GetObject(p1, p.objects[i].name);
      r.Some? && r.value <= i && |p2.objects| == |p.objects|
  {
    var p1 := ReleaseObject(p, i);
    assert p1.objects[i].name == p.objects[i].name && !p1.objects[i].active;
  }
}

=== FILE: Tiles.dfy ===
/**
 TileScript's handlers: placing the tower in hand on a tile, and clicking a
 tile to select or deselect its tower, together with the shop actions that
 change the grid (selling, upgrading). Tile colouring, the hover icon's sprite
 and sorting orders are not modelled; the hover icon is a visibility flag.
 */
module Tiles {
  import opened Options
  import opened Points
  import opened Towers
  import opened Grids
  import opened Moves
  import opened Levels
  import opened Game
  import opened Pooling
  import opened Monsters
  import Manager = Game

  /** The two singletons a tile talks to. */
  datatype World = World(level: Level, game: Game)

  /**
   What the handlers keep: the level is ready and the manager sound, the red
   portal's tile stays walkable, a tile is walkable exactly when it has no
   tower, every tower has passed `Awake` and has non-negative prices, the
   selection names a tower, and the tower in hand has non-negative prices.
   */
  ghost predicate Consistent(w: World)
  {
    var grid := w.level.grid;
    && Ready(w.level) && Sound(w.game)
    && Walkable(grid, RedSpawn)
    && (forall p :: p in grid.tiles ==> (grid.tiles[p].isEmpty <==> grid.tiles[p].tower.None?))
    && (forall p :: p in grid.tiles && grid.tiles[p].tower.Some? ==>
          Towers.Valid(grid.tiles[p].tower.value) && PricesOk(grid.tiles[p].tower.value))
    && SelectionOk(w.game, grid)
    && (w.game.clickedBtn.Some? ==>
          var btn := w.game.clickedBtn.value;
          PricesOk(btn.prefab.(price := btn.price)))
  }

  /**
   A new game: `CreateLevel` builds the grid from the level text and no path
   has been generated yet; the manager runs its field initialisers and `Start`
   with a pool that holds the prefabs and no objects. The handlers' invariant
   holds from the start.
   */
  method NewWorld(rows: seq<string>, prefabCount: nat, prefabs: seq<Pooled<Monster>>) returns (w: Option<World>)
    ensures w.Some? <==> Parses(rows, prefabCount) && |rows[0]| > 0 && InBounds(Point(|rows[0]|, |rows|), RedSpawn)
    ensures w.Some? ==> Consistent(w.value)
    ensures w.Some? ==>
      var g := w.value.game;
      && g.lives == 10 && g.currency == 4 && g.wave == 0 && !g.gameOver
      && g.activeMonsters == [] && g.clickedBtn.None? && g.selected.None?
    ensures w.Some? ==>
      var grid := w.value.level.grid;
      forall p :: p in grid.tiles ==> grid.tiles[p].isEmpty && grid.tiles[p].tower.None?
  {
    var grid := CreateLevel(rows, prefabCount);
    if grid.None? {
      return None;
    }
    var game := Manager.Start(Initial(Pool(prefabs, [])));
    w := Some(World(Level(grid.value, None, None), game));
  }

  /** The monsters' route from the blue portal to the red one exists. */
  ghost predicate HasRoute(w: World)
    requires Ready(w.level)
  {
    Reachable(w.level.grid, BlueSpawn, RedSpawn)
  }

  /**
   `PlaceTower`: instantiate the tower in hand on this tile at the button's
   price, hide the hover icon, mark the tile as taken and buy the tower.
   `BuyTower` only charges when the player can pay; the tower is placed
   either way.
   */
  function PlaceTower(w: World, pos: Point): (r: World)
    requires w.game.clickedBtn.Some? && pos in w.level.grid.tiles
    ensures r.level.grid.size == w.level.grid.size && r.level.grid.tiles.Keys == w.level.grid.tiles.Keys
    ensures var btn := w.game.clickedBtn.value;
      var t := r.level.grid.tiles[pos];
      && r.level == w.level.(grid := r.level.grid)
      && !t.isEmpty && t.gridPosition == w.level.grid.tiles[pos].gridPosition
      && t.tower.Some? && t.tower.value.price == btn.price && t.tower.value.level == 1
      && t.tower.value == btn.prefab.(level := 1, price := btn.price, monsters := [], target := None)
      && (forall q :: q in w.level.grid.tiles && q != pos ==> r.level.grid.tiles[q] == w.level.grid.tiles[q])
    ensures var btn := w.game.clickedBtn.value;
      && !r.game.hoverVisible
      && (w.game.currency >= btn.price ==> r.game.currency == w.game.currency - btn.price && r.game.clickedBtn.None?)
      && (w.game.currency < btn.price ==> r.game.currency == w.game.currency && r.game.clickedBtn == w.game.clickedBtn)
      && r.game == w.game.(currency := r.game.currency, clickedBtn := r.game.clickedBtn, hoverVisible := false)
  {
    var btn := w.game.clickedBtn.value;
    var tower := Towers.Awake(btn.prefab).(price := btn.price);
    var grid := w.level.grid;
    var grid' := grid.(tiles := grid.tiles[pos := grid.tiles[pos].(tower := Some(tower), isEmpty := false)]);
    World(w.level.(grid := grid'), BuyTower(w.game.(hoverVisible := false)))
  }

  /**
   `OnMouseOver` for the tile at `pos`, with `overUI` for
   `IsPointerOverGameObject` and `mouseDown` for a left click this frame.
   With a tower in hand the path check runs, and a click places the tower
   when the check passes and the tile is not the red portal. With an empty
   hand a click selects the tile's tower, or deselects when there is none.
   */
  method OnMouseOver(w: World, pos: Point, overUI: bool, mouseDown: bool) returns (w': World, placed: bool)
    requires Consistent(w) && pos in w.level.grid.tiles
    ensures Consistent(w')
    ensures placed <==>
      && !overUI && w.game.clickedBtn.Some? && mouseDown && pos != RedSpawn
      && Walkable(w.level.grid, pos) && Reachable(SetEmpty(w.level.grid, pos, false), RedSpawn, BlueSpawn)
    ensures placed ==> w'.game == PlaceTower(w, pos).game && w'.level.grid == PlaceTower(w, pos).level.grid
    ensures placed ==> HasRoute(w')
    ensures !placed ==> w'.level.grid == w.level.grid
    ensures !placed && !(!overUI && w.game.clickedBtn.None? && mouseDown) ==> w'.game == w.game
    ensures !overUI && w.game.clickedBtn.None? && mouseDown ==>
      w'.game == if w.level.grid.tiles[pos].tower.Some? then SelectTower(w.game, pos) else DeselectTower(w.game)
  {
    w' := w;
    placed := false;
    if !overUI && w.game.clickedBtn.Some? {
      var ok, l' := CheckPath(w.level, pos);
      w' := w.(level := l');
      if ok && pos != RedSpawn && mouseDown {
        w' := PlaceTower(w', pos);
        placed := true;
        PlacedKeepsRoute(w.(level := l'), w', pos);
      }
    } else if !overUI && w.game.clickedBtn.None? && mouseDown {
      if w.level.grid.tiles[pos].tower.Some? {
        w' := w.(game := SelectTower(w.game, pos));
      } else {
        w' := w.(game := DeselectTower(w.game));
      }
    }
  }

  /**
   A placement that passed the path check keeps the world consistent and
   leaves a Blue -> Red route, though the check itself searched Red -> Blue.
   */
  lemma PlacedKeepsRoute(w: World, w': World, pos: Point)
    requires Consistent(w) && w.game.clickedBtn.Some? && pos in w.level.grid.tiles && pos != RedSpawn
    requires Walkable(w.level.grid, pos) && Reachable(SetEmpty(w.level.grid, pos, false), RedSpawn, BlueSpawn)
    requires w' == PlaceTower(w, pos)
    ensures Consistent(w') && HasRoute(w')
  {
    var blocked := SetEmpty(w.level.grid, pos, false);
    var grid' := w'.level.grid;
    assert WellFormed(grid');
    assert AtLeastAsOpen(blocked, grid');
    OpeningKeepsRoutes(blocked, grid', RedSpawn, BlueSpawn);
    ReachableReverses(grid', RedSpawn, BlueSpawn);
  }

  /** The shop's tower buttons, on the world: a button whose tower is priced as the ladders are keeps the world consistent. */
  function Pick(w: World, btn: TowerBtn): (r: World)
    requires Consistent(w) && PricesOk(btn.prefab.(price := btn.price))
    ensures Consistent(r)
    ensures r.level == w.level
    ensures w.game.currency >= btn.price && |w.game.activeMonsters| == 0 ==> r.game.clickedBtn == Some(btn)
  {
    World(w.level, PickTower(w.game, btn))
  }

  /** The shop's sell button, on the world. */
  function Sell(w: World): (r: World)
    requires Consistent(w)
    ensures Consistent(r)
    ensures r.level == w.level.(grid := r.level.grid)
    ensures r.game.selected.None?
    ensures w.game.selected.Some? ==>
      r.game.currency == w.game.currency + TruncDiv(w.level.grid.tiles[w.game.selected.value].tower.value.price, 2)
    ensures w.game.selected.None? ==> r == w
  {
    var (g', grid') := SellTower(w.game, w.level.grid);
    World(w.level.(grid := grid'), g')
  }

  /** Selling opens a tile, so the monsters' route survives it. */
  lemma SellKeepsRoute(w: World)
    requires Consistent(w) && HasRoute(w)
    ensures HasRoute(Sell(w))
  {
    OpeningKeepsRoutes(w.level.grid, Sell(w).level.grid, BlueSpawn, RedSpawn);
  }

  /** The shop's upgrade button, on the world. */
  function Upgrade(w: World): (r: World)
    requires Consistent(w)
    ensures Consistent(r)
    ensures r.level == w.level.(grid := r.level.grid)
    ensures r.game == w.game.(currency := r.game.currency)
    ensures r.game.currency <= w.game.currency
  {
    var (g', grid') := UpgradeTower(w.game, w.level.grid);
    World(w.level.(grid := grid'), g')
  }

  /** Upgrading changes no tile's walkability, so it neither makes nor breaks the route. */
  lemma UpgradeKeepsRoute(w: World)
    requires Consistent(w)
    ensures HasRoute(w) <==> HasRoute(Upgrade(w))
  {
    var grid, grid' := w.level.grid, Upgrade(w).level.grid;
    if HasRoute(w) {
      OpeningKeepsRoutes(grid, grid', BlueSpawn, RedSpawn);
    }
    if HasRoute(Upgrade(w)) {
      OpeningKeepsRoutes(grid', grid, BlueSpawn, RedSpawn);
    }
  }

  /** Placing a tower on a free tile, selecting it and selling it gives the tile back exactly as it was, and refunds half the price. */
  lemma PlaceThenSellRestores(w: World, pos: Point)
    requires Consistent(w) && w.game.clickedBtn.Some? && pos in w.level.grid.tiles && Walkable(w.level.grid, pos)
    ensures var w1 := PlaceTower(w, pos);
      var (g2, grid2) := SellTower(SelectTower(w1.game, pos), w1.level.grid);
      && grid2 == w.level.grid
      && g2.currency == w1.game.currency + TruncDiv(w.game.clickedBtn.value.price, 2)
  {
    var w1 := PlaceTower(w, pos);
    var (g2, grid2) := SellTower(SelectTower(w1.game, pos), w1.level.grid);
    assert grid2.tiles == w.level.grid.tiles;
  }
}

=== FILE: Towers.dfy ===
/**
 The base tower (Tower.cs): its level and price, the upgrade ladder it climbs,
 and the queue of monsters that entered its range. Cooldown timers, projectile
 motion and the element-specific subclasses are not part of this model.
 */
module Towers {
  import opened Options
  import opened Elements
  import opened Upgrades

  /** A monster is referred to by its object-pool index. */
  type MonsterId = nat

  datatype Tower = Tower(
    level: int,
    price: int,
    damage: int,
    proc: real,
    debuffDuration: real,
    upgrades: seq<TowerUpgrade>,
    element: Element,
    monsters: seq<MonsterId>,
    target: Option<MonsterId>)

  /** Every tower the game creates has passed `Awake`, so its level is at least one. */
  ghost predicate Valid(t: Tower)
  {
    t.level >= 1
  }

  /** The tower's price and every rung's price are non-negative, as in each tower's ladder. */
  ghost predicate PricesOk(t: Tower)
  {
    t.price >= 0 && forall i :: 0 <= i < |t.upgrades| ==> t.upgrades[i].price >= 0
  }

  /**
   The field initialisers and `Awake` of a freshly instantiated tower: level 1,
   an empty monster queue and no target; its price, stats, ladder and element
   come from the prefab.
   */
  function Awake(prefab: Tower): (t: Tower)
    ensures Valid(t) && t.level == 1 && t.monsters == [] && t.target.None?
    ensures t.price == prefab.price && t.damage == prefab.damage && t.proc == prefab.proc
    ensures t.debuffDuration == prefab.debuffDuration && t.upgrades == prefab.upgrades && t.element == prefab.element
  {
    prefab.(level := 1, monsters := [], target := None)
  }

  /** `NextUpgrade`: the rung for the current level, or null once the ladder is exhausted. */
  function NextUpgrade(t: Tower): (r: Option<TowerUpgrade>)
    requires Valid(t)
    ensures r.Some? <==> t.level <= |t.upgrades|
    ensures r.Some? ==> r.value == t.upgrades[t.level - 1]
  {
    if |t.upgrades| > t.level - 1 then Some(t.upgrades[t.level - 1]) else None
  }

  /**
   `Upgrade`: pays the next rung's price out of the player's currency into the
   tower's price, adds the rung's bonuses and moves one level up.
   */
  function Upgrade(t: Tower, currency: int): (r: (Tower, int))
    requires Valid(t) && NextUpgrade(t).Some?
    ensures Valid(r.0) && r.0.level == t.level + 1
    ensures r.1 + r.0.price == currency + t.price
    ensures r.0.damage == t.damage + t.upgrades[t.level - 1].damage
    ensures r.0.proc == t.proc + t.upgrades[t.level - 1].procChance
    ensures r.0.debuffDuration == t.debuffDuration + t.upgrades[t.level - 1].debuffDuration
    ensures r.0.upgrades == t.upgrades && r.0.element == t.element
    ensures r.0.monsters == t.monsters && r.0.target == t.target
  {
    var u := NextUpgrade(t).value;
    (t.(price := t.price + u.price,
        damage := t.damage + u.damage,
        proc := t.proc + u.procChance,
        debuffDuration := t.debuffDuration + u.debuffDuration,
        level := t.level + 1),
     currency - u.price)
  }

  /** Climbing one rung makes the following rung (if any) the next upgrade. */
  lemma UpgradeAdvancesLadder(t: Tower, currency: int)
    requires Valid(t) && NextUpgrade(t).Some?
    ensures var t' := Upgrade(t, currency).0;
      NextUpgrade(t') == if t.level < |t.upgrades| then Some(t.upgrades[t.level]) else None
  {
  }

  /** A tower that has climbed every rung has no next upgrade, so a guarded upgrade cannot go further. */
  lemma LadderIsFinite(t: Tower)
    requires Valid(t) && t.level == |t.upgrades| + 1
    ensures NextUpgrade(t).None?
  {
  }

  /** `OnTriggerEnter2D`: a monster collider entering the range joins the back of the queue. */
  function Enter(t: Tower, isMonster: bool, m: MonsterId): (r: Tower)
    ensures isMonster ==> r.monsters == t.monsters + [m] && r.monsters[..|t.monsters|] == t.monsters
    ensures !isMonster ==> r == t
    ensures r.target == t.target && r.level == t.level
  {
    if isMonster then t.(monsters := t.monsters + [m]) else t
  }

  /** `OnTriggerExit2D`: any monster collider leaving the range clears the target. */
  function Exit(t: Tower, isMonster: bool): (r: Tower)
    ensures isMonster ==> r.target.None?
    ensures !isMonster ==> r == t
    ensures r.monsters == t.monsters
  {
    if isMonster then t.(target := None) else t
  }

  /**
   The targeting part of `Attack`. `canAttack` is the cooldown flag (its timer is
   not modelled); `isActive` and `isAlive` report the monsters' state. Returns the
   tower and whether it shoots this frame.
   */
  function Attack(t: Tower, canAttack: bool, isActive: MonsterId -> bool, isAlive: MonsterId -> bool): (r: (Tower, bool))
    ensures var (t', shoots) := r;
      && (shoots <==> canAttack && t.target.Some? && isActive(t.target.value))
      && (t.target.Some? && isActive(t.target.value) ==>
            t'.monsters == t.monsters
            && t'.target == (if isAlive(t.target.value) then t.target else None))
      && (!(t.target.Some? && isActive(t.target.value)) && |t.monsters| > 0 ==>
            t'.monsters == t.monsters[1..]
            && t'.target == (if isAlive(t.monsters[0]) then Some(t.monsters[0]) else None))
      && (!(t.target.Some? && isActive(t.target.value)) && |t.monsters| == 0 ==> t'.monsters == [])
      && (t'.target.Some? ==> isAlive(t'.target.value))
      && t' == t.(target := t'.target, monsters := t'.monsters)
  {
    var (t1, shoots) :=
      if t.target.Some? && isActive(t.target.value) then (t, canAttack)
      else if |t.monsters| > 0 then (t.(target := Some(t.monsters[0]), monsters := t.monsters[1..]), false)
      else (t, false);
    if t1.target.Some? && !isAlive(t1.target.value) then (t1.(target := None), shoots) else (t1, shoots)
  }

  /** Monsters are taken as targets in the order they entered the range. */
  lemma TargetsInArrivalOrder(t: Tower, m1: MonsterId, m2: MonsterId, isActive: MonsterId -> bool, isAlive: MonsterId -> bool)
    requires t.monsters == [] && t.target.None?
    requires isAlive(m1) && isAlive(m2)
    ensures var q := Enter(Enter(t, true, m1), true, m2);
      var (a, _) := Attack(q, false, isActive, isAlive);
      a.target == Some(m1) && a.monsters == [m2]
  {
  }
}

=== FILE: Units.dfy ===
/**
 Unit: a walker that follows an A* path one waypoint at a time. Motion between
 waypoints (`Vector2.MoveTowards`) is abstracted to a flag saying whether the
 unit has reached its current destination this frame.
 */
module Units {
  import opened Options
  import opened Points
  import opened Nodes

  /** The animator's "Horizontal" and "Vertical" parameters. */
  datatype Facing = Facing(horizontal: int, vertical: int)

  /**
   The unit's grid position, its remaining path (top first, None for the
   source's null), the waypoint it is heading for (standing for that node's
   world position), `IsActive`, and its animator state.
   */
  datatype Unit = Unit(gridPosition: Point, path: Option<seq<Node>>, destination: Option<Point>, isActive: bool, facing: Facing)

  /**
   `Animate`: a change of row sets a vertical facing (1 when the row index
   decreases, -1 when it increases), a horizontal move within the row a
   horizontal one (-1 left, 1 right); standing still keeps the old facing.
   */
  function Animate(f: Facing, currentPos: Point, newPos: Point): (r: Facing)
    ensures currentPos.y > newPos.y ==> r == Facing(0, 1)
    ensures currentPos.y < newPos.y ==> r == Facing(0, -1)
    ensures currentPos.y == newPos.y && currentPos.x > newPos.x ==> r == Facing(-1, 0)
    ensures currentPos.y == newPos.y && currentPos.x < newPos.x ==> r == Facing(1, 0)
    ensures currentPos == newPos ==> r == f
    ensures currentPos != newPos ==> (r.horizontal == 0) != (r.vertical == 0)
  {
    var f1 := if currentPos.y > newPos.y then Facing(0, 1)
              else if currentPos.y < newPos.y then Facing(0, -1)
              else f;
    if currentPos.y == newPos.y then
      if currentPos.x > newPos.x then Facing(-1, 0)
      else if currentPos.x < newPos.x then Facing(1, 0)
      else f1
    else f1
  }

  /** Pop the top waypoint: face it, stand on it and head for it. */
  function Advance(u: Unit): (r: Unit)
    requires u.path.Some? && |u.path.value| > 0
    ensures r.gridPosition == u.path.value[0].gridPosition && r.destination == Some(r.gridPosition)
    ensures r.path == Some(u.path.value[1..]) && r.isActive == u.isActive
    ensures r.facing == Animate(u.facing, u.gridPosition, r.gridPosition)
  {
    var top := u.path.value[0];
    u.(facing := Animate(u.facing, u.gridPosition, top.gridPosition),
       gridPosition := top.gridPosition,
       destination := Some(top.gridPosition),
       path := Some(u.path.value[1..]))
  }

  /**
   `SetPath`: a null path changes nothing; otherwise the unit takes the path,
   pops its first waypoint at once and becomes active or not as asked.
   `Stack.Peek` throws on an empty stack, so a given path must be non-empty.
   */
  function SetPath(u: Unit, newPath: Option<seq<Node>>, active: bool): (r: Unit)
    requires newPath.Some? ==> |newPath.value| > 0
    ensures newPath.None? ==> r == u
    ensures newPath.Some? ==>
      (&& r.gridPosition == newPath.value[0].gridPosition
       && r.path == Some(newPath.value[1..]) && r.isActive == active
       && r.destination == Some(r.gridPosition))
  {
    if newPath.None? then u else Advance(u.(path := newPath)).(isActive := active)
  }

  /**
   `Move`, one frame. An active unit that has reached its destination pops the
   next waypoint, or stops (becomes inactive) when none is left. An inactive
   unit, or one still on its way, is unchanged.
   */
  function Move(u: Unit, arrived: bool): (r: Unit)
    ensures !u.isActive || !arrived ==> r == u
    ensures u.isActive && arrived && u.path.Some? && |u.path.value| > 0 ==>
      r.isActive && r.gridPosition == u.path.value[0].gridPosition && r.path == Some(u.path.value[1..])
    ensures u.isActive && arrived && !(u.path.Some? && |u.path.value| > 0) ==> r == u.(isActive := false)
  {
    if !u.isActive || !arrived then u
    else if u.path.Some? && |u.path.value| > 0 then Advance(u)
    else u.(isActive := false)
  }

  /** `k` frames in which the unit arrives each time. */
  function Arrivals(u: Unit, k: nat): Unit
    decreases k
  {
    if k == 0 then u else Arrivals(Move(u, true), k - 1)
  }

  /**
   A unit started on a path visits its waypoints in pop order: after `k`
   arrivals it stands on waypoint `k` with the rest still ahead, and one
   arrival after the last waypoint it stops.
   */
  lemma {:induction false} WalksThePath(u: Unit, p: seq<Node>, k: nat)
    requires |p| > 0 && k < |p|
    ensures var v := Arrivals(SetPath(u, Some(p), true), k);
      v.isActive && v.gridPosition == p[k].gridPosition && v.path == Some(p[k + 1..])
    ensures !Arrivals(SetPath(u, Some(p), true), |p|).isActive
  {
    WalkFrom(SetPath(u, Some(p), true), p, 1, k);
    WalkFrom(SetPath(u, Some(p), true), p, 1, |p| - 1);
    var v := Arrivals(SetPath(u, Some(p), true), |p| - 1);
    ArrivalsSplit(SetPath(u, Some(p), true), |p| - 1);
    assert v.path == Some(p[|p|..]) && p[|p|..] == [];
  }

  lemma {:induction false} ArrivalsSplit(u: Unit, k: nat)
    ensures Arrivals(u, k + 1) == Move(Arrivals(u, k), true)
    decreases k
  {
    if k > 0 {
      ArrivalsSplit(Move(u, true), k - 1);
    }
  }

  /** The induction behind `WalksThePath`: from waypoint `i`, `j - i` arrivals reach waypoint `j`. */
  lemma {:induction false} WalkFrom(u: Unit, p: seq<Node>, i: nat, j: nat)
    requires 1 <= i <= |p| && i - 1 <= j < |p|
    requires u.isActive && u.gridPosition == p[i - 1].gridPosition && u.path == Some(p[i..])
    ensures var v := Arrivals(u, j - (i - 1));
      v.isActive && v.gridPosition == p[j].gridPosition && v.path == Some(p[j + 1..])
    decreases j - (i - 1)
  {
    if j > i - 1 {
      var u' := Move(u, true);
      assert p[i..][0] == p[i] && p[i..][1..] == p[i + 1..];
      WalkFrom(u', p, i + 1, j);
    }
  }
}

=== FILE: Upgrades.dfy ===
/**
 One rung of a tower's upgrade ladder (TowerUpgrade.cs). Each constructor of
 the source sets a subset of the fields; the rest keep C#'s default of zero.
 The record is immutable, as the source's private setters make it.
 */
module Upgrades {

  datatype TowerUpgrade = TowerUpgrade(
    price: int,
    damage: int,
    debuffDuration: real,
    procChance: real,
    slowingFactor: real,
    tickTime: real,
    specialDamage: int)

  /** The four-argument constructor (storm tower). */
  function StormUpgrade(price: int, damage: int, debuffDuration: real, procChance: real): (u: TowerUpgrade)
    ensures u.price == price && u.damage == damage
    ensures u.debuffDuration == debuffDuration && u.procChance == procChance
    ensures u.slowingFactor == 0.0 && u.tickTime == 0.0 && u.specialDamage == 0
  {
    TowerUpgrade(price, damage, debuffDuration, procChance, 0.0, 0.0, 0)
  }

  /** The five-argument constructor (frost tower). */
  function FrostUpgrade(price: int, damage: int, debuffDuration: real, procChance: real, slowingFactor: real): (u: TowerUpgrade)
    ensures u.price == price && u.damage == damage
    ensures u.debuffDuration == debuffDuration && u.procChance == procChance
    ensures u.slowingFactor == slowingFactor
    ensures u.tickTime == 0.0 && u.specialDamage == 0
  {
    TowerUpgrade(price, damage, debuffDuration, procChance, slowingFactor, 0.0, 0)
  }

  /** The six-argument constructor (fire and poison towers). */
  function TickUpgrade(price: int, damage: int, debuffDuration: real, procChance: real, tickTime: real, specialDamage: int): (u: TowerUpgrade)
    ensures u.price == price && u.damage == damage
    ensures u.debuffDuration == debuffDuration && u.procChance == procChance
    ensures u.tickTime == tickTime && u.specialDamage == specialDamage
    ensures u.slowingFactor == 0.0
  {
    TowerUpgrade(price, damage, debuffDuration, procChance, 0.0, tickTime, specialDamage)
  }
}
